=== FILE: README.md ===
# NewEngine core in Dafny

This project models the in-memory logic of NewEngine, a small game engine written in C# on top of MonoGame. The model covers these parts:

- **Object lifecycle manager** (`ObjectManagement`, over `Selection`). It keeps a list of live objects and a queue of instantiated objects waiting to be admitted.
  - Each update pass runs the update of every enabled live object, then drops the objects marked for removal, then admits the queue.
  - Drawing visits the visible live objects, stable-sorted by layer.
- **Game object** (`GameObjects`). It has flags, a layer, a position, a normalised origin and an optional sprite.
  - Without a sprite, every sprite property reads as a fixed default.
  - `Width`, `Height` and `Bounds` use C#'s truncating `(int)` cast.
- **Letterboxing display** (`Display`). The virtual screen is scaled uniformly into the back buffer and centred with integer halving.
  - The display switches between windowed and fullscreen mode.
- **Edge-triggered input** (`InputSampling`). It keeps double-buffered keyboard, gamepad and mouse snapshots, gated on window focus.
- **Scaled clock** (`Timing`).
- **Geometry helpers** (`Geometry`): segment/segment and segment/rectangle intersection, and direction rotations.
- **Vector arithmetic** (`Vectors`) and the nine named origins (`Origins`).
- **Engine frame step** (`Frame`): input poll, clock update, and the Escape/Back, F11 and F12 hot keys.
- **Required-property JSON reader** (`JsonReading`).

Modelling choices:
- Single-precision floats become exact `real`s. The `(int)` cast is `Primitives.Trunc`, which truncates toward zero. Integer `/ 2` is `Primitives.Half`, which also truncates toward zero.
- The source keeps the manager, clock, input and display in static fields. Here each is an object whose methods update its fields.
- Values the framework would supply become parameters: input samples, elapsed time, the display size and the per-object update behaviour.

## Model

| member | source | states |
|---|---|---|
| Primitives.Trunc | NewEngine/GameObjects/GameObject.cs:47 | the `(int)` cast truncates toward zero: for non-negative input the result is the largest integer not above it, for negative input the smallest not below it |
| Primitives.TruncIsNotFloor | NewEngine/Graphics.cs:122-123 | truncation differs from floor on negative non-integers |
| Primitives.Half | NewEngine/Graphics.cs:126-127 | integer halving truncates toward zero, so for negative odd input it differs from Euclidean division; the remainder bounds hold for both signs |
| Primitives.Add | NewEngine/GameObjects/GameObject.cs:248 | vector addition is undone by subtraction |
| Vectors.Sum | NewEngine/ExtensionMethods/Vector2Extensions.cs:29-32 | adding per-axis amounts equals adding the vector of those amounts |
| Vectors.SumScalar | NewEngine/ExtensionMethods/Vector2Extensions.cs:40-43 | adding one amount to both axes is the per-axis sum with equal amounts |
| Vectors.Subtract | NewEngine/ExtensionMethods/Vector2Extensions.cs:52-55 | per-axis subtraction is undone by the per-axis sum |
| Vectors.SubtractScalar | NewEngine/ExtensionMethods/Vector2Extensions.cs:63-66 | subtracting one amount from both axes is the per-axis subtraction with equal amounts |
| Vectors.SubtractVector | NewEngine/ExtensionMethods/Vector2Extensions.cs:74-77 | subtracting a vector subtracts its two components |
| Vectors.Multiply | NewEngine/ExtensionMethods/Vector2Extensions.cs:86-89 | multiplying by (1,1) is the identity and by (0,0) gives the zero vector |
| Vectors.MultiplyIsLinear | NewEngine/ExtensionMethods/Vector2Extensions.cs:86-89 | per-axis scaling maps a sum to the sum of the images, commutes with uniform scaling, and each output component depends only on the matching input component |
| Vectors.MultiplyScalar | NewEngine/ExtensionMethods/Vector2Extensions.cs:97-100 | uniform scaling is the per-axis scaling with equal factors |
| Vectors.SumSubtractRoundTrip | NewEngine/ExtensionMethods/Vector2Extensions.cs:29-55 | Sum and Subtract with the same amounts are mutually inverse, in both orders |
| Vectors.ExtendFrom | NewEngine/ExtensionMethods/Vector2Extensions.cs:109-115 | coincident points return `a` unchanged; otherwise the offset from `a` is the direction from `b` to `a` scaled by extension / distance |
| Geometry.Intersects | NewEngine/Utils.cs:48-65 | parallel segments never intersect; a reported intersection has both fractions in [0, 1] |
| Geometry.IntersectionIsSharedPoint | NewEngine/Utils.cs:48-65 | soundness: when the test succeeds, the point at fraction t on A equals the point at fraction u on B |
| Geometry.LinesMeet | NewEngine/Utils.cs:58-63 | on non-parallel lines, the two computed fractions name the same point |
| Geometry.SharedPointIsIntersection | NewEngine/Utils.cs:48-65 | completeness: non-parallel segments that share a point are reported as intersecting |
| Geometry.CollinearOverlapIsNotIntersection | NewEngine/Utils.cs:54-56 | overlapping collinear segments share a point but are reported as not intersecting |
| Geometry.IntersectsRectangle | NewEngine/Utils.cs:32-38 | true exactly when the segment intersects at least one of the four edges (top, left, bottom, right) |
| Geometry.InsideSegmentMisses | NewEngine/Utils.cs:32-38 | a segment strictly inside a rectangle touches none of its edges, so the rectangle test says false |
| Geometry.EdgeContactIsDetected | NewEngine/Utils.cs:32-38 | a segment that crosses any of the four edges, non-parallel, makes the rectangle test say true |
| Geometry.RotateDirectionCounterClockwise | NewEngine/Utils.cs:82-85 | the result is perpendicular to the input and of the same length, with the orientation of a counter-clockwise quarter turn in screen coordinates; the zero vector stays zero |
| Geometry.RotateDirectionClockwise | NewEngine/Utils.cs:72-75 | the result is perpendicular to the input and undone by the counter-clockwise turn |
| Geometry.QuarterTurns | NewEngine/Utils.cs:72-85 | the two quarter turns are mutual inverses, and four clockwise turns are the identity |
| Geometry.OppositeDirection | NewEngine/Utils.cs:91-94 | as written: the half turn of the vector with its components swapped |
| Geometry.OppositeDirectionIsNotHalfTurn | NewEngine/Utils.cs:86-94 | OppositeDirection is the documented 180 degree rotation exactly when x == y; (1,0) gives (0,-1) where (-1,0) is documented |
| Geometry.HalfTurn | NewEngine/Utils.cs:87-88 | the documented 180 degree rotation: two clockwise quarter turns, and it adds to the input to give zero |
| Origins.AnchorsAreOnTheGrid | NewEngine/Origins.cs:13-37 | every named origin has coordinates in {0, 0.5, 1} and lies in the unit square |
| Origins.AnchorsAreDistinct | NewEngine/Origins.cs:13-37 | the nine origins are pairwise distinct, with top left (0,0), centre (0.5,0.5) and bottom right (1,1) |
| Origins.GetScreenPosition | NewEngine/Origins.cs:44-47 | an origin in the unit square maps into the rectangle of viewport width by virtual height |
| Origins.CornersOnScreen | NewEngine/Origins.cs:44-47 | top left maps to (0,0) and bottom right to (viewport width, virtual height) |
| Origins.ScreenPositionIsLinear | NewEngine/Origins.cs:44-47 | the conversion is linear and per axis: a sum of origins maps to the sum of their positions, scaling the origin by k scales the position by k, screen X depends only on origin X and screen Y only on origin Y; with CornersOnScreen this fixes the position as (origin X times viewport width, origin Y times virtual height) |
| Origins.CenterMixesResolutions | NewEngine/Origins.cs:44-47 | the conversion mixes the viewport width with the virtual height: the centre for a 1000-wide viewport of a 1280x720 screen is (500, 360), not (640, 360) |
| Timing.Time.constructor | NewEngine/Time.cs:10-27 | a fresh clock has no elapsed time and a time scale of 1, so scaled and unscaled time agree |
| Timing.Time.DeltaTime | NewEngine/Time.cs:16 | scaled time is 0 when paused, equals unscaled time at scale 1, and is non-negative for non-negative inputs |
| Timing.Time.UnscaledDeltaTime | NewEngine/Time.cs:22 | the unscaled time times the time scale is the scaled time; at scale 1 the two are equal |
| Timing.Time.UpdateDeltaTime | NewEngine/Time.cs:33-36 | records the elapsed time and leaves the time scale unchanged |
| Host.Game.Exit | NewEngine/EngineGame.cs:42-43 | an exit request is recorded |
| InputSampling.Input.Init | NewEngine/Input.cs:51-54 | attaches the game; all snapshots start empty |
| InputSampling.Input.Update | NewEngine/Input.cs:59-67 | each previous snapshot becomes the prior current one, and each current snapshot becomes the new sample |
| InputSampling.Input.JustPressed | NewEngine/Input.cs:122-125 | true exactly when pressed now, not pressed before, and the window has focus |
| InputSampling.Input.IsKeyDown | NewEngine/Input.cs:74-77 | true exactly when the key is in the current keyboard snapshot and the window has focus |
| InputSampling.Input.IsKeyPressed | NewEngine/Input.cs:84-87 | true exactly when the key is down with focus and was not in the previous snapshot |
| InputSampling.Input.IsLeftClickPressed | NewEngine/Input.cs:93-96 | a rising edge of the left button while focused |
| InputSampling.Input.IsRightClickPressed | NewEngine/Input.cs:102-105 | a rising edge of the right button while focused |
| InputSampling.Input.IsMiddleClickPressed | NewEngine/Input.cs:111-114 | a rising edge of the middle button while focused |
| InputSampling.Input.HoldKey | NewEngine/Input.cs:59-87 | a key held through three samples is pressed after the first only; afterwards both keyboard snapshots are the other held keys plus that key, and the gamepad and mouse snapshots are the original ones |
| InputSampling.Input.InactiveGameSeesNothing | NewEngine/Input.cs:74-125 | without focus no key is down and nothing is pressed |
| InputSampling.Input.RepeatedSampleIsNotPressed | NewEngine/Input.cs:84-87 | an unchanged keyboard reports no key pressed |
| Display.LetterboxScale | NewEngine/Graphics.cs:117-120 | the scale is the smaller of the two axis ratios, so it fits both axes |
| Display.Letterbox | NewEngine/Graphics.cs:112-134 | both sides are the virtual sides scaled by the one LetterboxScale factor and truncated; the viewport lies inside the back buffer and fills it along at least one axis; the spare pixels are split between the bars, with the odd one going to the second bar |
| Display.LetterboxKeepsAspect | NewEngine/Graphics.cs:117-123 | with one common scale for both axes, each viewport side is the virtual side times that scale, less than one pixel short, so the viewport keeps the virtual aspect ratio up to truncation |
| Display.ScaledSizeFits | NewEngine/Graphics.cs:117-123 | both scaled sizes are non-negative and at most the back buffer size, and one of them equals it |
| Display.LetterboxOfVirtualSize | NewEngine/Graphics.cs:112-134 | a back buffer of exactly the virtual size gives the viewport (0, 0, virtual width, virtual height) |
| Display.LetterboxExample | NewEngine/Graphics.cs:112-134 | a 1280x720 virtual screen in a 1000x1000 back buffer gives the viewport (0, 219, 1000, 562) |
| Display.Graphics.Init | NewEngine/Graphics.cs:64-77 | records the virtual size, and sets the preferred and applied back buffer to that size in windowed mode, with a full viewport |
| Display.Graphics.ApplyChanges | NewEngine/Graphics.cs:77 | the back buffer adopts the preferred size |
| Display.Graphics.UpdateViewport | NewEngine/Graphics.cs:112-134 | the viewport becomes the letterbox of the current back buffer |
| Display.Graphics.SetResolution | NewEngine/Graphics.cs:97-106 | in fullscreen nothing changes; otherwise the back buffer becomes (w, h) and the viewport is its letterbox |
| Display.Graphics.ToggleFullscreen | NewEngine/Graphics.cs:140-155 | the mode flips; entering fullscreen takes the display size, leaving it takes the virtual size, and the viewport is recomputed |
| Display.Graphics.ToggleTwice | NewEngine/Graphics.cs:140-155 | two toggles from windowed mode restore windowed mode at the virtual size with a full viewport |
| Display.Graphics.ScaleX | NewEngine/Graphics.cs:41 | the horizontal scale maps the virtual width onto the viewport width |
| Display.Graphics.ScaleY | NewEngine/Graphics.cs:46 | the vertical scale maps the virtual height onto the viewport height |
| Display.Graphics.ScaleMatrix | NewEngine/Graphics.cs:51 | the matrix maps the virtual size onto the viewport size and leaves z alone |
| Display.ScalesDifferAfterTruncation | NewEngine/Graphics.cs:41-46 | the two scales are computed independently and can differ after truncation: 1280x720 in 1000x1000 gives 0.78125 horizontally and less vertically |
| GameObjects.GameObject.constructor | NewEngine/GameObjects/GameObject.cs:142-162 | a new object is enabled, visible, unmarked, on layer 0, at the origin with origin (0,0), whatever its sprite |
| GameObjects.GameObject.SetX | NewEngine/GameObjects/GameObject.cs:23-27 | changes X and keeps Y |
| GameObjects.GameObject.SetY | NewEngine/GameObjects/GameObject.cs:32-36 | changes Y and keeps X |
| GameObjects.GameObject.Rotation | NewEngine/GameObjects/GameObject.cs:67-69 | 0 without a sprite |
| GameObjects.GameObject.Scale | NewEngine/GameObjects/GameObject.cs:79-81 | (1,1) without a sprite |
| GameObjects.GameObject.Color | NewEngine/GameObjects/GameObject.cs:91-93 | white without a sprite |
| GameObjects.GameObject.SpriteEffects | NewEngine/GameObjects/GameObject.cs:104-106 | no effects without a sprite |
| GameObjects.GameObject.X | NewEngine/GameObjects/GameObject.cs:23-27 | the horizontal component of the position: with the vertical one it rebuilds the position; SetX is its setter |
| GameObjects.GameObject.Y | NewEngine/GameObjects/GameObject.cs:32-36 | the vertical component of the position: with the horizontal one it rebuilds the position; SetY is its setter |
| GameObjects.GameObject.Width | NewEngine/GameObjects/GameObject.cs:41-49 | 0 without a sprite; with a sprite, the frame width times the horizontal scale truncated toward zero: the frame width itself at scale 1, and within one pixel below the exact product for non-negative sizes |
| GameObjects.GameObject.Height | NewEngine/GameObjects/GameObject.cs:54-62 | the same as Width, for the height |
| GameObjects.GameObject.Bounds | NewEngine/GameObjects/GameObject.cs:132-137 | the size is always (Width, Height); the corner is the position moved back by the origin's share of that size, truncated (BoxStart); with origin (0,0) it is the truncated position; for an origin in the unit square the box covers the position up to one pixel |
| GameObjects.BoxStart | NewEngine/GameObjects/GameObject.cs:133-134 | the truncated start of a box placed so that the position sits at the given fraction of it; for a fraction in [0, 1] and a non-negative size the box covers the position up to one pixel, and fraction 0 starts at the truncated position |
| GameObjects.GameObject.SetRotation | NewEngine/GameObjects/GameObject.cs:70-73 | forwards to the sprite; without a sprite nothing changes |
| GameObjects.GameObject.SetScale | NewEngine/GameObjects/GameObject.cs:82-85 | forwards to the sprite; without a sprite nothing changes |
| GameObjects.GameObject.SetColor | NewEngine/GameObjects/GameObject.cs:94-97 | forwards to the sprite; without a sprite nothing changes |
| GameObjects.GameObject.SetSpriteEffects | NewEngine/GameObjects/GameObject.cs:107-110 | forwards to the sprite; without a sprite nothing changes |
| GameObjects.GameObject.SetOrigin | NewEngine/GameObjects/GameObject.cs:118-127 | always stores the origin, and with a sprite also places its pivot at that fraction of the frame size |
| GameObjects.PivotAt | NewEngine/GameObjects/GameObject.cs:125 | only the pivot changes, and it is the frame size scaled per axis by the origin: origin (0,0) gives pivot (0,0), the centre origin gives half the frame size, and origin (1,1) the full frame size |
| GameObjects.PivotIsIdempotent | NewEngine/GameObjects/GameObject.cs:118-127 | setting the same origin twice is the same as once |
| GameObjects.GameObject.LoadContent | NewEngine/GameObjects/GameObject.cs:177-181 | an object without a sprite becomes invisible; otherwise visibility is kept |
| GameObjects.GameObject.Initialize | NewEngine/GameObjects/GameObject.cs:168-171 | the same effect as LoadContent |
| GameObjects.GameObject.Enable | NewEngine/GameObjects/GameObject.cs:203 | sets only the enabled flag |
| GameObjects.GameObject.Disable | NewEngine/GameObjects/GameObject.cs:208 | clears only the enabled flag |
| GameObjects.GameObject.Show | NewEngine/GameObjects/GameObject.cs:213 | sets only the visible flag |
| GameObjects.GameObject.Hide | NewEngine/GameObjects/GameObject.cs:218 | clears only the visible flag |
| GameObjects.GameObject.MarkForRemoval | NewEngine/GameObjects/GameObject.cs:223 | sets only the removal mark, and marking twice is the same as once |
| GameObjects.GameObject.HideAndDisable | NewEngine/GameObjects/GameObject.cs:228-232 | clears exactly the enabled and visible flags |
| GameObjects.GameObject.SetSprite | NewEngine/GameObjects/GameObject.cs:238-242 | replaces the sprite and centres the origin, placing the new sprite's pivot at its centre |
| GameObjects.GameObject.Move | NewEngine/GameObjects/GameObject.cs:248 | adds the offset to the position |
| Selection.Select | NewEngine/GameObjects/GameObjectManager.cs:81 | the filtered sequence is no longer than its input and holds only elements of the input; which elements it keeps is stated by SelectMembership |
| Selection.SelectMembership | NewEngine/GameObjects/GameObjectManager.cs:81 | an element is selected exactly when it occurs at a position whose mask bit is set |
| Selection.SelectSplits | NewEngine/GameObjects/GameObjectManager.cs:89 | the kept and the removed elements together have the length of the input |
| Selection.SelectAppend | NewEngine/GameObjects/GameObjectManager.cs:89 | filtering a concatenation filters each part and concatenates the results, so the kept elements keep their relative order |
| Selection.SelectAllOrNothing | NewEngine/GameObjects/GameObjectManager.cs:81 | an all-true mask keeps everything and an all-false mask keeps nothing |
| Selection.SortIsSorted | NewEngine/GameObjects/GameObjectManager.cs:110 | the layer sort yields ascending keys |
| Selection.SortByKey | NewEngine/GameObjects/GameObjectManager.cs:110 | the layer sort is a permutation of its input |
| Selection.SortIsStable | NewEngine/GameObjects/GameObjectManager.cs:110 | for every key, the sort keeps the pairs with that key in their input order |
| Selection.SortFirsts | NewEngine/GameObjects/GameObjectManager.cs:110 | the sorted objects are a permutation of the input objects |
| ObjectManagement.RemovalOutcome | NewEngine/GameObjects/GameObjectManager.cs:54-58 | an object is marked after the update loop exactly when it was marked before, or it is enabled and its update marks it |
| ObjectManagement.MarkedAreAdmitted | NewEngine/GameObjects/GameObjectManager.cs:52-60 | after removal by the loop's marks, every marked object of the new live list is one of the admitted objects |
| ObjectManagement.DrawOrderPermutes | NewEngine/GameObjects/GameObjectManager.cs:110 | the draw order is a permutation of the visible objects |
| ObjectManagement.DrawOrderSorted | NewEngine/GameObjects/GameObjectManager.cs:110 | the draw order visits layers in ascending order |
| ObjectManagement.DrawOrderStable | NewEngine/GameObjects/GameObjectManager.cs:110 | objects on the same layer are drawn in live-list order |
| ObjectManagement.GameObjectManager.constructor | NewEngine/GameObjects/GameObjectManager.cs:22-27 | both lists start empty |
| ObjectManagement.GameObjectManager.Instantiate | NewEngine/GameObjects/GameObjectManager.cs:42-46 | appends the object to the queue and initializes it; the live list is unchanged, so the object is neither updated nor drawn before admission |
| ObjectManagement.GameObjectManager.GetUpdatableGameObjects | NewEngine/GameObjects/GameObjectManager.cs:79-82 | the live list filtered by the enabled flags, so exactly the enabled live objects, in live-list order; all of them when all are enabled |
| ObjectManagement.GameObjectManager.RemoveMarkedForRemoval | NewEngine/GameObjects/GameObjectManager.cs:87-90 | removes exactly the marked live objects; the survivors keep their order and the queue is untouched |
| ObjectManagement.GameObjectManager.AddInstantiated | NewEngine/GameObjects/GameObjectManager.cs:95-102 | the live list is followed by the queue, in queue order, and the queue is emptied; an empty queue changes nothing |
| ObjectManagement.GameObjectManager.UpdateObject | NewEngine/GameObjects/GameObjectManager.cs:56 | one object's update marks it when its reaction says so, and queues the objects it instantiates, in order; each of those is initialized, so it stays visible only if it was visible and has a sprite |
| ObjectManagement.GameObjectManager.UpdateEach | NewEngine/GameObjects/GameObjectManager.cs:54-57 | every object of the sequence is updated once, in order; the queue grows by what the updates instantiate; each instantiated object is initialized (visible only if it was visible and has a sprite) and every other object the updates could instantiate keeps its visibility |
| ObjectManagement.GameObjectManager.UpdateEnabled | NewEngine/GameObjects/GameObjectManager.cs:54-57 | updates exactly the objects that are enabled when the loop starts, and leaves the marks given by RemovalOutcome; visibility of instantiated and other candidate objects as in UpdateEach |
| ObjectManagement.GameObjectManager.UpdateGameObjects | NewEngine/GameObjects/GameObjectManager.cs:52-60 | the new live list is the unremoved old objects, then the old queue, then the objects instantiated during the loop; the queue ends empty; the length accounting holds; each instantiated object has been initialized (visible only if it was visible and has a sprite) |
| ObjectManagement.GameObjectManager.GetDrawableGameObjects | NewEngine/GameObjects/GameObjectManager.cs:108-111 | exactly the visible live objects, as a permutation, with ascending layers, in live-list order within each layer |
| ObjectManagement.GameObjectManager.DrawGameObjects | NewEngine/GameObjects/GameObjectManager.cs:67-73 | draws each drawable object once, in draw order |
| Frame.F12TimeScale | NewEngine/EngineGame.cs:50 | the new time scale is 1 exactly when the old one was at least 1, and 3 otherwise |
| Frame.F12FromNormalSpeed | NewEngine/EngineGame.cs:50 | from the default scale F12 keeps normal speed, and two presses always give normal speed |
| Frame.Update | NewEngine/EngineGame.cs:38-53 | polls input and records time before any query; exits on an Escape edge or a held Back button (which ignores focus); an F11 edge toggles fullscreen once, and without it the display is unchanged; an F12 edge applies F12TimeScale, and without it the time scale is unchanged |
| JsonReading.KindOf | NewEngine/ExtensionMethods/JsonReaderExtensions.cs:23 | the runtime type of a token is an instance of itself, and the only other kinds it satisfies are the general token and container types |
| JsonReading.GetPropertyOrThrow | NewEngine/ExtensionMethods/JsonReaderExtensions.cs:19-26 | succeeds exactly when the property is present and of the requested kind, and then returns the stored token; otherwise it fails with the missing-property, type-mismatch or library error, in that order of checks |
| JsonReading.MessagesDiffer | NewEngine/ExtensionMethods/JsonReaderExtensions.cs:21-24 | the missing-property and type-mismatch messages can never be equal |
| JsonReading.MissingTakesPrecedence | NewEngine/ExtensionMethods/JsonReaderExtensions.cs:21-24 | a missing property never yields a type-mismatch error |
| JsonReading.StoreThenGet | NewEngine/ExtensionMethods/JsonReaderExtensions.cs:19-26 | a token stored under a name reads back unchanged as its own kind or any kind it belongs to; any other kind yields the type-mismatch message |
| JsonReading.OtherPropertiesIrrelevant | NewEngine/ExtensionMethods/JsonReaderExtensions.cs:19-26 | the result depends only on the property asked for |

## Left out

- MiningGame is a sample scene that only draws sprites.
- The device bootstrap in `Graphics.Init` is not modelled: graphics profile, vsync, hardware mode switch and the multisampling handler.
- Also not modelled: the `EngineGame` constructor, `Initialize`, `LoadContent` and `Draw`, and `Utils.Init` with its one-pixel texture. These only create GPU resources or do framework wiring.
- Sprites are a record held by value. The animated sprite's own `Update` and `Draw`, called from `GameObject.Update`/`Draw`, belong to a library that is not part of this model.
  - A sprite object shared between two game objects is not modelled: its aliasing is lost.
- ObjectManagement.GameObjectManager.UpdateObject: an object's update is reduced to what the manager observes, a `Reaction` that says whether the object marks itself and which objects it instantiates.
  - An update that enables, disables or marks another live object is not modelled.
  - The source's lazy `Where` would see such a change; the model's loop uses the enabled objects as they were when the loop started.
- ObjectManagement.GameObjectManager.UpdateGameObjects: the fact that every marked object in the new live list was admitted in this pass is not stated in this member's contract.
  - It follows from UpdateEnabled, which leaves the marks given by RemovalOutcome, together with ObjectManagement.MarkedAreAdmitted.
  - Its contract states how the objects instantiated during the loop are initialized. That every other object keeps its visibility is stated by UpdateEnabled and UpdateEach, not here.
  - The visibility clauses speak of objects that existed when the pass began. An object the update itself would create with `new` is outside the model, because a `Reaction` only names objects.
- ObjectManagement.GameObjectManager.Instantiate: `Initialize` and `LoadContent` are virtual, and a game object class may override them. The model uses the base behaviour for every object: an object without a sprite becomes invisible. Overrides are not modelled.
- Floating-point rounding is not modelled: floats and doubles are exact reals. Only the explicit `(int)` casts and integer halving are modelled.
- Vectors.ExtendFrom: the distance computed with `Math.Sqrt` is the parameter `len`, which is required to be non-negative and zero exactly when the points coincide.
  - The float-to-double round trip of that branch is not modelled.
- `Vector2Extensions.ToString` (culture formatting), `Direction` (normalisation) and `Mth` (random numbers) are floating-point or library numerics.
- `Input.IsMouseInBounds` depends on `Graphics.ScreenToVirtual`, which is not part of this model.
- The gamepad is reduced to the set of held buttons, the mouse to its position and three buttons, and the keyboard to the set of held keys.
- `JsonWriterExtensions` only forwards to the JSON library's writer.
- JsonReading.GetPropertyOrThrow: only object, array and value tokens are modelled; the library's other token types (property, constructor, raw) are not.
  - When a name is looked up on an array or a value, the library throws an exception whose text is not modelled. The model keeps only the runtime type of the token.
- Display.Graphics.ApplyChanges: the framework is assumed to adopt the preferred back-buffer size exactly.
- A non-positive virtual size is excluded by `Display.Graphics.Valid`, which requires both virtual dimensions to be positive. With a zero size the source would divide by zero in floating point.
- C#'s 32-bit `int` is modelled as an unbounded integer. This covers the fields of a rectangle, the layer, the viewport arithmetic, and the `(int)` casts in Width, Height, Bounds and the letterbox computation. An out-of-range float cast, or an overflowing sum, is not modelled.
- The display mode size that `ToggleFullscreen` reads from the graphics adapter is a parameter.
- Every object update happens on one thread. The source has no concurrency to model.

## Findings

| source | as written | input that shows it | evidently intended | confidence | as-written member | corrected member |
|---|---|---|---|---|---|---|
| NewEngine/Utils.cs:86-94 | `OppositeDirection` returns (-y, -x), a reflection across the line y = -x | (1, 0) gives (0, -1) | the documented 180 degree rotation (-x, -y), which gives (-1, 0) | high, not executed | Geometry.OppositeDirectionIsNotHalfTurn | Geometry.HalfTurn |

=== FILE: display.dfy ===
/**
  Resolution-independent rendering. The game draws on a virtual screen of
  fixed size; the viewport is the largest rectangle of the virtual aspect
  ratio that fits in the back buffer, centred, with bars on the two remaining
  sides. The graphics device is reduced to the fields the engine reads and
  writes; the size of the display mode is a parameter.
 */
module Display {
  import opened Primitives

  /** The device's drawing rectangle inside the back buffer, in pixels. */
  datatype Viewport = Viewport(x: int, y: int, width: int, height: int)

  /** A scaling transform, as built by the framework's `Matrix.CreateScale(x, y, z)`. */
  datatype ScaleTransform = ScaleTransform(x: real, y: real, z: real)

  /** Applies a scaling transform to a point of the plane. */
  function Transform(m: ScaleTransform, p: Vector2): Vector2
  {
    Vector2(p.x * m.x, p.y * m.y)
  }

  /**
    The single scale factor applied to both axes: the smaller of the two
    ratios between the back buffer and the virtual screen.
   */
  function LetterboxScale(actualWidth: int, actualHeight: int, virtualWidth: int, virtualHeight: int): (s: real)
    requires 0 < virtualWidth && 0 < virtualHeight
    ensures s <= actualWidth as real / virtualWidth as real
    ensures s <= actualHeight as real / virtualHeight as real
    ensures s == actualWidth as real / virtualWidth as real || s == actualHeight as real / virtualHeight as real
  {
    var sx, sy := actualWidth as real / virtualWidth as real, actualHeight as real / virtualHeight as real;
    if sx <= sy then sx else sy
  }

  /** A virtual length scaled and truncated to whole pixels. */
  function ScaledSize(virtualSize: int, scale: real): int
  {
    Trunc(virtualSize as real * scale)
  }

  /**
    The viewport computed from the back buffer size: the virtual size scaled
    by `LetterboxScale` and truncated, then centred with integer halving.
    For a back buffer of non-negative size the viewport lies inside it, fills
    it along at least one axis, and splits the spare pixels of each axis
    between the two bars, the second bar getting the odd pixel.
   */
  function Letterbox(actualWidth: int, actualHeight: int, virtualWidth: int, virtualHeight: int): (v: Viewport)
    requires 0 < virtualWidth && 0 < virtualHeight
    ensures var s := LetterboxScale(actualWidth, actualHeight, virtualWidth, virtualHeight);
      v.width == ScaledSize(virtualWidth, s) && v.height == ScaledSize(virtualHeight, s)
    ensures 0 <= actualWidth && 0 <= actualHeight ==>
      0 <= v.x && 0 <= v.y && 0 <= v.width && 0 <= v.height &&
      v.x + v.width <= actualWidth && v.y + v.height <= actualHeight
    ensures 0 <= actualWidth && 0 <= actualHeight ==>
      v.width == actualWidth || v.height == actualHeight
    ensures 0 <= actualWidth && 0 <= actualHeight ==>
      v.x <= actualWidth - v.x - v.width <= v.x + 1 &&
      v.y <= actualHeight - v.y - v.height <= v.y + 1
  {
    var scale := LetterboxScale(actualWidth, actualHeight, virtualWidth, virtualHeight);
    var scaledWidth := ScaledSize(virtualWidth, scale);
    var scaledHeight := ScaledSize(virtualHeight, scale);
    if 0 <= actualWidth && 0 <= actualHeight then
      ScaledSizeFits(actualWidth, actualHeight, virtualWidth, virtualHeight);
      Viewport(Half(actualWidth - scaledWidth), Half(actualHeight - scaledHeight), scaledWidth, scaledHeight)
    else
      Viewport(Half(actualWidth - scaledWidth), Half(actualHeight - scaledHeight), scaledWidth, scaledHeight)
  }

  /** The truncated scaled size fits the back buffer and equals it along the limiting axis. */
  lemma ScaledSizeFits(actualWidth: int, actualHeight: int, virtualWidth: int, virtualHeight: int)
    requires 0 < virtualWidth && 0 < virtualHeight && 0 <= actualWidth && 0 <= actualHeight
    ensures var scale := LetterboxScale(actualWidth, actualHeight, virtualWidth, virtualHeight);
      0 <= ScaledSize(virtualWidth, scale) <= actualWidth &&
      0 <= ScaledSize(virtualHeight, scale) <= actualHeight &&
      (ScaledSize(virtualWidth, scale) == actualWidth || ScaledSize(virtualHeight, scale) == actualHeight)
  {
    var scale := LetterboxScale(actualWidth, actualHeight, virtualWidth, virtualHeight);
    RatioIsNonNegative(actualWidth, virtualWidth);
    RatioIsNonNegative(actualHeight, virtualHeight);
    AxisFits(virtualWidth, actualWidth, scale);
    AxisFits(virtualHeight, actualHeight, scale);
  }

  lemma RatioIsNonNegative(actualSize: int, virtualSize: int)
    requires 0 < virtualSize && 0 <= actualSize
    ensures 0.0 <= actualSize as real / virtualSize as real
  {
  }

  /**
    Along one axis: a scale no larger than the axis ratio gives a size within
    the back buffer, and the axis ratio itself gives exactly the back buffer size.
   */
  lemma AxisFits(virtualSize: int, actualSize: int, scale: real)
    requires 0 < virtualSize && 0 <= actualSize
    requires 0.0 <= scale <= actualSize as real / virtualSize as real
    ensures 0 <= ScaledSize(virtualSize, scale) <= actualSize
    ensures scale == actualSize as real / virtualSize as real ==> ScaledSize(virtualSize, scale) == actualSize
  {
    var v, a := virtualSize as real, actualSize as real;
    NonNegativeProduct(v, scale);
    NonNegativeProduct(v, a / v - scale);
    assert v * (a / v) == a;
    if scale == a / v {
      TruncOfInt(actualSize);
    }
  }

  /**
    The viewport keeps the virtual aspect ratio up to truncation: both sides
    are the virtual sides times one common scale, each less than one pixel
    short of the exact product.
   */
  lemma LetterboxKeepsAspect(actualWidth: int, actualHeight: int, virtualWidth: int, virtualHeight: int)
    requires 0 < virtualWidth && 0 < virtualHeight && 0 <= actualWidth && 0 <= actualHeight
    ensures var s := LetterboxScale(actualWidth, actualHeight, virtualWidth, virtualHeight);
      var v := Letterbox(actualWidth, actualHeight, virtualWidth, virtualHeight);
      v.width as real <= virtualWidth as real * s < v.width as real + 1.0 &&
      v.height as real <= virtualHeight as real * s < v.height as real + 1.0
  {
    var s := LetterboxScale(actualWidth, actualHeight, virtualWidth, virtualHeight);
    var v := Letterbox(actualWidth, actualHeight, virtualWidth, virtualHeight);
    RatioIsNonNegative(actualWidth, virtualWidth);
    RatioIsNonNegative(actualHeight, virtualHeight);
    NonNegativeProduct(virtualWidth as real, s);
    NonNegativeProduct(virtualHeight as real, s);
  }

  /** When the back buffer has the virtual size, the viewport covers all of it. */
  lemma {:induction false} LetterboxOfVirtualSize(virtualWidth: int, virtualHeight: int)
    requires 0 < virtualWidth && 0 < virtualHeight
    ensures Letterbox(virtualWidth, virtualHeight, virtualWidth, virtualHeight) == Viewport(0, 0, virtualWidth, virtualHeight)
  {
    var scale := LetterboxScale(virtualWidth, virtualHeight, virtualWidth, virtualHeight);
    assert scale == 1.0 by {
      assert virtualWidth as real / virtualWidth as real == 1.0;
    }
    AxisFits(virtualWidth, virtualWidth, scale);
    AxisFits(virtualHeight, virtualHeight, scale);
    assert Half(0) == 0;
  }

  /** A 1280x720 virtual screen in a 1000x1000 back buffer is letterboxed to 1000x562 with a 219-pixel top bar. */
  lemma LetterboxExample()
    ensures Letterbox(1000, 1000, 1280, 720) == Viewport(0, 219, 1000, 562)
  {
    assert LetterboxScale(1000, 1000, 1280, 720) == 0.78125;
    assert 1280.0 * 0.78125 == 1000.0;
    assert 720.0 * 0.78125 == 562.5;
    assert Trunc(562.5) == 562;
  }

  class Graphics {
    var virtualWidth: int
    var virtualHeight: int
    /** The back buffer size requested from the device manager. */
    var preferredWidth: int
    var preferredHeight: int
    /** The back buffer size in effect since the last `ApplyChanges`. */
    var backBufferWidth: int
    var backBufferHeight: int
    var isFullScreen: bool
    var viewport: Viewport

    /** The virtual screen has a positive size, so the scale factors are defined. */
    predicate Valid()
      reads this
    {
      0 < virtualWidth && 0 < virtualHeight
    }

    /**
      Records the virtual resolution, requests a windowed back buffer of that
      size and applies it. The device starts with a viewport covering the
      whole back buffer.
     */
    constructor Init(width: int, height: int)
      requires 0 < width && 0 < height
      ensures Valid()
      ensures virtualWidth == width && virtualHeight == height
      ensures preferredWidth == width && preferredHeight == height
      ensures backBufferWidth == width && backBufferHeight == height
      ensures !isFullScreen && viewport == Viewport(0, 0, width, height)
    {
      virtualWidth := width;
      virtualHeight := height;
      preferredWidth := width;
      preferredHeight := height;
      isFullScreen := false;
      new;
      ApplyChanges();
      viewport := Viewport(0, 0, backBufferWidth, backBufferHeight);
    }

    /** The device adopts the preferred back buffer size. */
    method ApplyChanges()
      modifies this`backBufferWidth, this`backBufferHeight
      ensures backBufferWidth == preferredWidth && backBufferHeight == preferredHeight
    {
      backBufferWidth := preferredWidth;
      backBufferHeight := preferredHeight;
    }

    /** Recomputes the letterboxed viewport for the current back buffer. */
    method UpdateViewport()
      requires Valid()
      modifies this`viewport
      ensures viewport == Letterbox(backBufferWidth, backBufferHeight, virtualWidth, virtualHeight)
    {
      var actualWidth := backBufferWidth;
      var actualHeight := backBufferHeight;
      var scale := LetterboxScale(actualWidth, actualHeight, virtualWidth, virtualHeight);
      var scaledWidth := ScaledSize(virtualWidth, scale);
      var scaledHeight := ScaledSize(virtualHeight, scale);
      viewport := Viewport(Half(actualWidth - scaledWidth), Half(actualHeight - scaledHeight), scaledWidth, scaledHeight);
    }

    /** Resizes the window's back buffer; ignored while in fullscreen mode. */
    method SetResolution(width: int, height: int)
      requires Valid()
      modifies this`preferredWidth, this`preferredHeight, this`backBufferWidth, this`backBufferHeight, this`viewport
      ensures old(isFullScreen) ==>
        preferredWidth == old(preferredWidth) && preferredHeight == old(preferredHeight) &&
        backBufferWidth == old(backBufferWidth) && backBufferHeight == old(backBufferHeight) &&
        viewport == old(viewport)
      ensures !old(isFullScreen) ==>
        preferredWidth == width && preferredHeight == height &&
        backBufferWidth == width && backBufferHeight == height &&
        viewport == Letterbox(width, height, virtualWidth, virtualHeight)
    {
      if isFullScreen {
        return;
      }
      preferredWidth := width;
      preferredHeight := height;
      ApplyChanges();
      UpdateViewport();
    }

    /**
      Switches between windowed and fullscreen mode. Entering fullscreen uses
      the display mode's size for the back buffer; leaving it restores the
      virtual size.
     */
    method ToggleFullscreen(displayWidth: int, displayHeight: int)
      requires Valid()
      modifies this`preferredWidth, this`preferredHeight, this`backBufferWidth, this`backBufferHeight, this`isFullScreen, this`viewport
      ensures isFullScreen == !old(isFullScreen)
      ensures !old(isFullScreen) ==> preferredWidth == displayWidth && preferredHeight == displayHeight
      ensures old(isFullScreen) ==> preferredWidth == virtualWidth && preferredHeight == virtualHeight
      ensures backBufferWidth == preferredWidth && backBufferHeight == preferredHeight
      ensures viewport == Letterbox(backBufferWidth, backBufferHeight, virtualWidth, virtualHeight)
    {
      if !isFullScreen {
        preferredWidth := displayWidth;
        preferredHeight := displayHeight;
      } else {
        preferredWidth := virtualWidth;
        preferredHeight := virtualHeight;
      }
      isFullScreen := !isFullScreen;
      ApplyChanges();
      UpdateViewport();
    }

    /** Toggling twice from windowed mode returns to windowed mode at the virtual size, with the viewport filling the window. */
    method ToggleTwice(displayWidth: int, displayHeight: int)
      requires Valid() && !isFullScreen
      modifies this`preferredWidth, this`preferredHeight, this`backBufferWidth, this`backBufferHeight, this`isFullScreen, this`viewport
      ensures !isFullScreen
      ensures backBufferWidth == virtualWidth && backBufferHeight == virtualHeight
      ensures viewport == Viewport(0, 0, virtualWidth, virtualHeight)
    {
      ToggleFullscreen(displayWidth, displayHeight);
      ToggleFullscreen(displayWidth, displayHeight);
      LetterboxOfVirtualSize(virtualWidth, virtualHeight);
    }

    /** Horizontal scale from the virtual screen to the viewport. */
    function ScaleX(): (r: real)
      requires Valid()
      reads this
      ensures r * virtualWidth as real == viewport.width as real
    {
      viewport.width as real / virtualWidth as real
    }

    /** Vertical scale from the virtual screen to the viewport, computed independently of `ScaleX`. */
    function ScaleY(): (r: real)
      requires Valid()
      reads this
      ensures r * virtualHeight as real == viewport.height as real
    {
      viewport.height as real / virtualHeight as real
    }

    /** The transform that maps the virtual screen onto the viewport's size. */
    function ScaleMatrix(): (m: ScaleTransform)
      requires Valid()
      reads this
      ensures Transform(m, Vector2(virtualWidth as real, virtualHeight as real)) == Vector2(viewport.width as real, viewport.height as real)
      ensures m.z == 1.0
    {
      ScaleTransform(ScaleX(), ScaleY(), 1.0)
    }
  }

  /**
    Truncation makes the two scale factors differ: letterboxing 1280x720 into
    1000x1000 gives a horizontal scale of 0.78125 but a smaller vertical one.
   */
  lemma ScalesDifferAfterTruncation(g: Graphics)
    requires g.virtualWidth == 1280 && g.virtualHeight == 720
    requires g.viewport == Letterbox(1000, 1000, 1280, 720)
    ensures g.ScaleX() == 0.78125
    ensures g.ScaleY() < g.ScaleX()
  {
    LetterboxExample();
  }
}

=== FILE: frame.dfy ===
/**
  The engine's per-frame step, which runs before the game's own update: it
  polls input, records the frame time, and then reacts to the engine's hot
  keys. Escape, or the gamepad's Back button, ends the game; F11 switches
  between windowed and fullscreen mode; F12 switches the time scale.
 */
module Frame {
  import opened Host
  import opened InputSampling
  import opened Timing
  import opened Display

  /**
    The time scale after F12: normal speed when the game already runs at
    normal speed or faster, triple speed when it runs slower.
   */
  function F12TimeScale(current: real): (r: real)
    ensures 1.0 <= r
    ensures r == 1.0 <==> 1.0 <= current
    ensures current < 1.0 ==> r == 3.0
  {
    if current >= 1.0 then 1.0 else 3.0
  }

  /**
    From the default time scale of 1, F12 keeps normal speed, and pressing it
    twice always lands on normal speed.
   */
  lemma F12FromNormalSpeed(current: real)
    ensures F12TimeScale(1.0) == 1.0
    ensures F12TimeScale(F12TimeScale(current)) == 1.0
  {
    var once := F12TimeScale(current);
    assert 1.0 <= once;
  }

  /**
    One frame of the engine. The new keyboard, gamepad and mouse samples, the
    elapsed time and the display size are what the framework would supply.
    Every hot-key query reads the snapshots taken in this same frame. Escape
    counts only on its rising edge while the window has focus; Back counts
    whenever it is held, with or without focus.
   */
  method Update(game: Game, input: Input, time: Time, graphics: Graphics,
                elapsed: real, keyboardNow: set<Key>, gamePadNow: set<Button>, mouseNow: MouseState,
                displayWidth: int, displayHeight: int)
    requires input.game == game && graphics.Valid()
    modifies input, time`deltaTime, time`timeScale, game`exitRequested
    modifies graphics`preferredWidth, graphics`preferredHeight, graphics`backBufferWidth, graphics`backBufferHeight
    modifies graphics`isFullScreen, graphics`viewport
    ensures input.oldKeyboard == old(input.keyboard) && input.keyboard == keyboardNow
    ensures input.oldGamePad == old(input.gamePad) && input.gamePad == gamePadNow
    ensures input.oldMouse == old(input.mouse) && input.mouse == mouseNow
    ensures time.deltaTime == elapsed
    ensures game.exitRequested == (old(game.exitRequested) || input.IsKeyPressed(Escape) || Back in gamePadNow)
    ensures input.IsKeyPressed(F11) ==>
      graphics.isFullScreen == !old(graphics.isFullScreen) &&
      (!old(graphics.isFullScreen) ==> graphics.backBufferWidth == displayWidth && graphics.backBufferHeight == displayHeight) &&
      (old(graphics.isFullScreen) ==> graphics.backBufferWidth == graphics.virtualWidth && graphics.backBufferHeight == graphics.virtualHeight) &&
      graphics.viewport == Letterbox(graphics.backBufferWidth, graphics.backBufferHeight, graphics.virtualWidth, graphics.virtualHeight)
    ensures !input.IsKeyPressed(F11) ==> unchanged(graphics)
    ensures graphics.Valid()
    ensures time.timeScale == if input.IsKeyPressed(F12) then F12TimeScale(old(time.timeScale)) else old(time.timeScale)
  {
    input.Update(keyboardNow, gamePadNow, mouseNow);
    time.UpdateDeltaTime(elapsed);
    if input.IsKeyPressed(Escape) || Back in input.gamePad {
      game.Exit();
    }
    if input.IsKeyPressed(F11) {
      graphics.ToggleFullscreen(displayWidth, displayHeight);
    }
    if input.IsKeyPressed(F12) {
      time.timeScale := F12TimeScale(time.timeScale);
    }
  }
}

=== FILE: gameobject.dfy ===
/**
  The state every game object carries: a position, a normalised origin, the
  flags the manager consults (enabled, visible, marked for removal, layer) and
  an optional animated sprite. Sprite animation and drawing belong to an
  external library; the sprite is reduced to the properties the object reads
  and writes.
 */
module GameObjects {
  import opened Primitives
  import Origins

  /**
    The sprite properties the game object forwards: the frame size in
    pixels, the rotation in radians, the scale, the tint, the mirroring flags
    and the pivot in pixels.
   */
  datatype Sprite = Sprite(
    width: int,
    height: int,
    rotation: real,
    scale: Vector2,
    color: Color,
    effects: SpriteEffects,
    origin: Vector2)

  class GameObject {
    var position: Vector2
    /** The pivot as a fraction of the sprite size: (0,0) top left, (1,1) bottom right. */
    var origin: Vector2
    /** Updated each frame while set. */
    var enabled: bool
    /** Drawn each frame while set. */
    var visible: bool
    /** Removed from the live list at the end of the current update. */
    var removalMark: bool
    /** Lower layers are drawn first, behind higher ones. */
    var layer: int
    var sprite: Option<Sprite>

    /** A new object is enabled, visible, unmarked, on layer 0, at (0,0) with origin (0,0), whatever its sprite. */
    constructor (sprite: Option<Sprite>)
      ensures this.sprite == sprite
      ensures position == Zero && origin == Zero
      ensures enabled && visible && !removalMark && layer == 0
    {
      this.sprite := sprite;
      position := Zero;
      origin := Zero;
      enabled := true;
      visible := true;
      removalMark := false;
      layer := 0;
    }

    /**
      The X coordinate of the position; with the Y coordinate it makes up the
      whole position. `SetX` is its setter: reading back after it gives the
      value written.
     */
    function X(): (r: real)
      reads this`position
      ensures Vector2(r, position.y) == position
    {
      position.x
    }

    /**
      The Y coordinate of the position; with the X coordinate it makes up the
      whole position. `SetY` is its setter: reading back after it gives the
      value written.
     */
    function Y(): (r: real)
      reads this`position
      ensures Vector2(position.x, r) == position
    {
      position.y
    }

    /** Replaces the X coordinate of the position; Y is kept. */
    method SetX(value: real)
      modifies this`position
      ensures X() == value && Y() == old(Y())
    {
      position := Vector2(value, position.y);
    }

    /** Replaces the Y coordinate of the position; X is kept. */
    method SetY(value: real)
      modifies this`position
      ensures Y() == value && X() == old(X())
    {
      position := Vector2(position.x, value);
    }

    /** The sprite's rotation, 0 without a sprite. */
    function Rotation(): (r: real)
      reads this`sprite
      ensures sprite.None? ==> r == 0.0
    {
      if sprite.Some? then sprite.value.rotation else 0.0
    }

    /** The sprite's scale, (1,1) without a sprite. */
    function Scale(): (r: Vector2)
      reads this`sprite
      ensures sprite.None? ==> r == One
    {
      if sprite.Some? then sprite.value.scale else One
    }

    /** The sprite's tint, white without a sprite. */
    function Color(): (r: Primitives.Color)
      reads this`sprite
      ensures sprite.None? ==> r == White
    {
      if sprite.Some? then sprite.value.color else White
    }

    /** The sprite's mirroring flags, none without a sprite. */
    function SpriteEffects(): (r: Primitives.SpriteEffects)
      reads this`sprite
      ensures sprite.None? ==> r == NoEffects
    {
      if sprite.Some? then sprite.value.effects else NoEffects
    }

    /**
      The on-screen width: the frame width times the horizontal scale,
      truncated toward zero; 0 without a sprite.
     */
    function Width(): (w: int)
      reads this`sprite
      ensures sprite.None? ==> w == 0
      ensures sprite.Some? ==> w == Trunc(sprite.value.width as real * Scale().x)
      ensures sprite.Some? && Scale().x == 1.0 ==> w == sprite.value.width
      ensures sprite.Some? && 0 <= sprite.value.width && 0.0 <= Scale().x ==>
        0 <= w && w as real <= sprite.value.width as real * Scale().x < w as real + 1.0
    {
      if sprite.None? then 0
      else
        var size := sprite.value.width as real * Scale().x;
        if 0 <= sprite.value.width && 0.0 <= Scale().x then
          NonNegativeProduct(sprite.value.width as real, Scale().x);
          Trunc(size)
        else
          Trunc(size)
    }

    /**
      The on-screen height: the frame height times the vertical scale,
      truncated toward zero; 0 without a sprite.
     */
    function Height(): (h: int)
      reads this`sprite
      ensures sprite.None? ==> h == 0
      ensures sprite.Some? ==> h == Trunc(sprite.value.height as real * Scale().y)
      ensures sprite.Some? && Scale().y == 1.0 ==> h == sprite.value.height
      ensures sprite.Some? && 0 <= sprite.value.height && 0.0 <= Scale().y ==>
        0 <= h && h as real <= sprite.value.height as real * Scale().y < h as real + 1.0
    {
      if sprite.None? then 0
      else
        var size := sprite.value.height as real * Scale().y;
        if 0 <= sprite.value.height && 0.0 <= Scale().y then
          NonNegativeProduct(sprite.value.height as real, Scale().y);
          Trunc(size)
        else
          Trunc(size)
    }

    /**
      The axis-aligned box the object covers: its size is (`Width`, `Height`)
      and its corner is the position moved back by the origin's share of that
      size, truncated toward zero.
     */
    function Bounds(): (r: Rectangle)
      reads this`position, this`origin, this`sprite
      ensures r.width == Width() && r.height == Height()
      ensures origin == Zero ==> r.x == Trunc(position.x) && r.y == Trunc(position.y)
      ensures sprite.None? ==> r == Rectangle(Trunc(position.x), Trunc(position.y), 0, 0)
      ensures r.x == BoxStart(position.x, r.width, origin.x) && r.y == BoxStart(position.y, r.height, origin.y)
      ensures 0 <= r.width && 0.0 <= origin.x <= 1.0 ==> r.x as real - 1.0 < position.x < (r.x + r.width) as real + 1.0
      ensures 0 <= r.height && 0.0 <= origin.y <= 1.0 ==> r.y as real - 1.0 < position.y < (r.y + r.height) as real + 1.0
    {
      var w, h := Width(), Height();
      Rectangle(BoxStart(position.x, w, origin.x), BoxStart(position.y, h, origin.y), w, h)
    }

    /** Forwards a rotation to the sprite; without a sprite nothing changes. */
    method SetRotation(value: real)
      modifies this`sprite
      ensures old(sprite).None? ==> sprite == None
      ensures old(sprite).Some? ==> sprite == Some(old(sprite).value.(rotation := value))
      ensures sprite.Some? ==> Rotation() == value
    {
      if sprite.Some? {
        sprite := Some(sprite.value.(rotation := value));
      }
    }

    /** Forwards a scale to the sprite; without a sprite nothing changes. */
    method SetScale(value: Vector2)
      modifies this`sprite
      ensures old(sprite).None? ==> sprite == None
      ensures old(sprite).Some? ==> sprite == Some(old(sprite).value.(scale := value))
      ensures sprite.Some? ==> Scale() == value
    {
      if sprite.Some? {
        sprite := Some(sprite.value.(scale := value));
      }
    }

    /** Forwards a tint to the sprite; without a sprite nothing changes. */
    method SetColor(value: Primitives.Color)
      modifies this`sprite
      ensures old(sprite).None? ==> sprite == None
      ensures old(sprite).Some? ==> sprite == Some(old(sprite).value.(color := value))
      ensures sprite.Some? ==> Color() == value
    {
      if sprite.Some? {
        sprite := Some(sprite.value.(color := value));
      }
    }

    /** Forwards mirroring flags to the sprite; without a sprite nothing changes. */
    method SetSpriteEffects(value: Primitives.SpriteEffects)
      modifies this`sprite
      ensures old(sprite).None? ==> sprite == None
      ensures old(sprite).Some? ==> sprite == Some(old(sprite).value.(effects := value))
      ensures sprite.Some? ==> SpriteEffects() == value
    {
      if sprite.Some? {
        sprite := Some(sprite.value.(effects := value));
      }
    }

    /**
      Stores a normalised origin and, when there is a sprite, moves the
      sprite's pivot to the matching pixel of its frame.
     */
    method SetOrigin(value: Vector2)
      modifies this`origin, this`sprite
      ensures origin == value
      ensures old(sprite).None? ==> sprite == None
      ensures old(sprite).Some? ==> sprite == Some(PivotAt(old(sprite).value, value))
    {
      origin := value;
      if sprite.Some? {
        sprite := Some(PivotAt(sprite.value, origin));
      }
    }

    /** Loads the object's content; an object without a sprite becomes invisible. */
    method LoadContent()
      modifies this`visible
      ensures visible == (old(visible) && sprite.Some?)
    {
      if sprite.None? {
        visible := false;
      }
    }

    /** Prepares the object when it is instantiated; the same as loading its content. */
    method Initialize()
      modifies this`visible
      ensures visible == (old(visible) && sprite.Some?)
    {
      LoadContent();
    }

    method Enable()
      modifies this`enabled
      ensures enabled
    {
      enabled := true;
    }

    method Disable()
      modifies this`enabled
      ensures !enabled
    {
      enabled := false;
    }

    method Show()
      modifies this`visible
      ensures visible
    {
      visible := true;
    }

    method Hide()
      modifies this`visible
      ensures !visible
    {
      visible := false;
    }

    /** Marks the object for removal at the end of the current update; marking twice is the same as once. */
    method MarkForRemoval()
      modifies this`removalMark
      ensures removalMark
    {
      removalMark := true;
    }

    /** Stops both updating and drawing the object. */
    method HideAndDisable()
      modifies this`enabled, this`visible
      ensures !enabled && !visible
    {
      Disable();
      Hide();
    }

    /** Replaces the sprite and centres the origin on it. */
    method SetSprite(newSprite: Sprite)
      modifies this`sprite, this`origin
      ensures origin == Origins.Center
      ensures sprite == Some(PivotAt(newSprite, Origins.Center))
    {
      sprite := Some(newSprite);
      SetOrigin(Origins.Center);
    }

    /** Moves the object by `offset`. */
    method Move(offset: Vector2)
      modifies this`position
      ensures position == Add(old(position), offset)
      ensures Sub(position, offset) == old(position)
    {
      position := Add(position, offset);
    }
  }

  /**
    Along one axis, the start of a box of length `size` placed so that `p`
    sits at the fraction `o` of it, truncated toward zero. With `o` between
    0 and 1 the box covers `p` up to one pixel; with `o` = 0 it starts at `p`.
   */
  function BoxStart(p: real, size: int, o: real): (start: int)
    ensures start == Trunc(p - size as real * o)
    ensures o == 0.0 ==> start == Trunc(p)
    ensures 0 <= size && 0.0 <= o <= 1.0 ==> start as real - 1.0 < p < (start + size) as real + 1.0
  {
    var share := size as real * o;
    if 0 <= size && 0.0 <= o <= 1.0 then
      NonNegativeProduct(size as real, o);
      NonNegativeProduct(size as real, 1.0 - o);
      assert size as real * (1.0 - o) == size as real - share;
      var start := Trunc(p - share);
      assert start as real - 1.0 < p - share;
      start
    else
      Trunc(p - share)
  }

  /** A sprite whose pivot sits at the given fraction of its frame size; nothing else differs. */
  function PivotAt(s: Sprite, origin: Vector2): (r: Sprite)
    ensures r.width == s.width && r.height == s.height && r.scale == s.scale
    ensures r.rotation == s.rotation && r.color == s.color && r.effects == s.effects
    ensures origin == Zero ==> r.origin == Zero
    ensures origin == One ==> r.origin == Vector2(s.width as real, s.height as real)
    ensures origin == Vector2(0.5, 0.5) ==> r.origin == Vector2(s.width as real / 2.0, s.height as real / 2.0)
    ensures r.origin == Vector2(s.width as real * origin.x, s.height as real * origin.y)
  {
    s.(origin := Vector2(s.width as real * origin.x, s.height as real * origin.y))
  }

  /** Once the pivot is set from an origin, setting it again from the same origin changes nothing. */
  lemma PivotIsIdempotent(s: Sprite, origin: Vector2)
    ensures PivotAt(PivotAt(s, origin), origin) == PivotAt(s, origin)
  {
  }
}

=== FILE: geometry.dfy ===
/**
  The engine's geometry helpers: segment/segment and segment/rectangle
  intersection tests, and quarter-turn rotations of direction vectors.
 */
module Geometry {
  import opened Primitives
  import opened Vectors

  /** The scalar 2D cross product p.x * q.y - p.y * q.x. */
  function Cross(p: Vector2, q: Vector2): real
  {
    p.x * q.y - p.y * q.x
  }

  /** The point a fraction `t` of the way from `s` to `e`. */
  function PointOn(s: Vector2, e: Vector2, t: real): Vector2
  {
    Vector2(s.x + t * (e.x - s.x), s.y + t * (e.y - s.y))
  }

  /** The parallelism test of the segment test: zero when the two directions are parallel. */
  function Denominator(startA: Vector2, endA: Vector2, startB: Vector2, endB: Vector2): real
  {
    Cross(Sub(endA, startA), Sub(endB, startB))
  }

  /** Where the supporting lines meet, as a fraction along segment A. */
  function FractionA(startA: Vector2, endA: Vector2, startB: Vector2, endB: Vector2): real
    requires Denominator(startA, endA, startB, endB) != 0.0
  {
    Cross(Sub(startB, startA), Sub(endB, startB)) / Denominator(startA, endA, startB, endB)
  }

  /** Where the supporting lines meet, as a fraction along segment B. */
  function FractionB(startA: Vector2, endA: Vector2, startB: Vector2, endB: Vector2): real
    requires Denominator(startA, endA, startB, endB) != 0.0
  {
    Cross(Sub(startB, startA), Sub(endA, startA)) / Denominator(startA, endA, startB, endB)
  }

  /**
    Segment/segment test. Parallel segments never intersect, even when they
    are collinear and overlap; otherwise both fractions must lie in [0, 1],
    endpoints included.
   */
  function Intersects(startA: Vector2, endA: Vector2, startB: Vector2, endB: Vector2): (r: bool)
    ensures Denominator(startA, endA, startB, endB) == 0.0 ==> !r
    ensures r ==> 0.0 <= FractionA(startA, endA, startB, endB) <= 1.0
    ensures r ==> 0.0 <= FractionB(startA, endA, startB, endB) <= 1.0
  {
    var bDotDPerp := Denominator(startA, endA, startB, endB);
    if bDotDPerp == 0.0 then false
    else
      var t := FractionA(startA, endA, startB, endB);
      if t < 0.0 || t > 1.0 then false
      else
        var u := FractionB(startA, endA, startB, endB);
        0.0 <= u && u <= 1.0
  }

  /** Soundness: when the test succeeds, the two segments share a point. */
  lemma {:induction false} IntersectionIsSharedPoint(startA: Vector2, endA: Vector2, startB: Vector2, endB: Vector2)
    requires Intersects(startA, endA, startB, endB)
    ensures var t, u := FractionA(startA, endA, startB, endB), FractionB(startA, endA, startB, endB);
      0.0 <= t <= 1.0 && 0.0 <= u <= 1.0 && PointOn(startA, endA, t) == PointOn(startB, endB, u)
  {
    LinesMeet(startA, endA, startB, endB);
  }

  /** On non-parallel lines, the two fractions name the same point. */
  lemma LinesMeet(startA: Vector2, endA: Vector2, startB: Vector2, endB: Vector2)
    requires Denominator(startA, endA, startB, endB) != 0.0
    ensures PointOn(startA, endA, FractionA(startA, endA, startB, endB))
         == PointOn(startB, endB, FractionB(startA, endA, startB, endB))
  {
    var b, d, c := Sub(endA, startA), Sub(endB, startB), Sub(startB, startA);
    var den := Cross(b, d);
    var tn, un := Cross(c, d), Cross(c, b);
    CrossIdentity(b.x, b.y, d.x, d.y, c.x, c.y);
    CrossIdentity(b.y, b.x, d.y, d.x, c.y, c.x);
    QuotientStep(tn, un, b.x, d.x, den, c.x);
    QuotientStep(tn, un, b.y, d.y, den, c.y);
  }

  /** Cramer's rule for two unknowns, multiplied out: one component of the solution. */
  lemma CrossIdentity(px: real, py: real, qx: real, qy: real, cx: real, cy: real)
    ensures (cx * qy - cy * qx) * px - (cx * py - cy * px) * qx == (px * qy - py * qx) * cx
  {
  }

  lemma QuotientStep(tn: real, un: real, p: real, q: real, den: real, c: real)
    requires den != 0.0 && tn * p - un * q == den * c
    ensures (tn / den) * p - (un / den) * q == c
  {
    assert (tn / den) * p - (un / den) * q == (tn * p - un * q) / den;
  }

  /**
    Completeness: two non-parallel segments that share a point are reported as
    intersecting.
   */
  lemma {:induction false} SharedPointIsIntersection(startA: Vector2, endA: Vector2, startB: Vector2, endB: Vector2, t: real, u: real)
    requires Denominator(startA, endA, startB, endB) != 0.0
    requires 0.0 <= t <= 1.0 && 0.0 <= u <= 1.0
    requires PointOn(startA, endA, t) == PointOn(startB, endB, u)
    ensures Intersects(startA, endA, startB, endB)
  {
    var b, d, c := Sub(endA, startA), Sub(endB, startB), Sub(startB, startA);
    var den := Cross(b, d);
    // t * b - u * d == c, crossed with d and with b
    assert t * b.x - u * d.x == c.x && t * b.y - u * d.y == c.y;
    assert Cross(c, d) == t * den by {
      assert Cross(c, d) == (t * b.x - u * d.x) * d.y - (t * b.y - u * d.y) * d.x;
    }
    assert Cross(c, b) == u * den by {
      assert Cross(c, b) == (t * b.x - u * d.x) * b.y - (t * b.y - u * d.y) * b.x;
    }
    assert FractionA(startA, endA, startB, endB) == t;
    assert FractionB(startA, endA, startB, endB) == u;
  }

  /**
    Collinear overlapping segments are reported as not intersecting: the
    segments from (0, 0) to (2, 0) and from (0, 0) to (3, 0) share the whole
    of the first one, starting with their common start point.
   */
  lemma CollinearOverlapIsNotIntersection()
    ensures PointOn(Vector2(0.0, 0.0), Vector2(2.0, 0.0), 0.0) == PointOn(Vector2(0.0, 0.0), Vector2(3.0, 0.0), 0.0)
    ensures !Intersects(Vector2(0.0, 0.0), Vector2(2.0, 0.0), Vector2(0.0, 0.0), Vector2(3.0, 0.0))
  {
    var origin := Vector2(0.0, 0.0);
    StartOfSegment(origin, Vector2(2.0, 0.0));
    StartOfSegment(origin, Vector2(3.0, 0.0));
    HorizontalSegmentsAreParallel(origin, Vector2(2.0, 0.0), origin, Vector2(3.0, 0.0));
  }

  /** A fraction of zero is the start of the segment. */
  lemma StartOfSegment(s: Vector2, e: Vector2)
    ensures PointOn(s, e, 0.0) == s
  {
  }

  /** Two segments on one horizontal line are parallel. */
  lemma HorizontalSegmentsAreParallel(startA: Vector2, endA: Vector2, startB: Vector2, endB: Vector2)
    requires startA.y == endA.y && startB.y == endB.y
    ensures Denominator(startA, endA, startB, endB) == 0.0
  {
  }

  /** The top-left corner of a rectangle as a vector. */
  function Corner(rect: Rectangle): Vector2
  {
    Vector2(rect.x as real, rect.y as real)
  }

  /**
    Segment/rectangle test: the segment crosses or touches one of the four
    edges (top, left, bottom, right). A segment wholly inside the rectangle crosses no edge and is not reported.
   */
  function IntersectsRectangle(lineStart: Vector2, lineEnd: Vector2, rect: Rectangle): (r: bool)
    ensures r <==> exists i :: 0 <= i < 4 && Intersects(lineStart, lineEnd, Edge(rect, i).0, Edge(rect, i).1)
  {
    EdgeCrossed(lineStart, lineEnd, rect, 0)
    || EdgeCrossed(lineStart, lineEnd, rect, 1)
    || EdgeCrossed(lineStart, lineEnd, rect, 2)
    || EdgeCrossed(lineStart, lineEnd, rect, 3)
  }

  /** The segment meets edge `i` of the rectangle. */
  predicate EdgeCrossed(lineStart: Vector2, lineEnd: Vector2, rect: Rectangle, i: nat)
    requires i < 4
  {
    Intersects(lineStart, lineEnd, Edge(rect, i).0, Edge(rect, i).1)
  }

  /** `p` lies strictly inside the rectangle. */
  predicate StrictlyInside(p: Vector2, rect: Rectangle)
  {
    rect.x as real < p.x < (rect.x + rect.width) as real
    && rect.y as real < p.y < (rect.y + rect.height) as real
  }

  /** A segment lying strictly inside the rectangle touches no edge, so the test says false. */
  lemma {:induction false} InsideSegmentMisses(lineStart: Vector2, lineEnd: Vector2, rect: Rectangle)
    requires StrictlyInside(lineStart, rect) && StrictlyInside(lineEnd, rect)
    ensures !IntersectsRectangle(lineStart, lineEnd, rect)
  {
    EdgeMissed(lineStart, lineEnd, Edge(rect, 0).0, Edge(rect, 0).1, rect);
    EdgeMissed(lineStart, lineEnd, Edge(rect, 1).0, Edge(rect, 1).1, rect);
    EdgeMissed(lineStart, lineEnd, Edge(rect, 2).0, Edge(rect, 2).1, rect);
    EdgeMissed(lineStart, lineEnd, Edge(rect, 3).0, Edge(rect, 3).1, rect);
  }

  /** An axis-parallel edge on the border of the rectangle misses an inside segment. */
  lemma EdgeMissed(lineStart: Vector2, lineEnd: Vector2, s: Vector2, e: Vector2, rect: Rectangle)
    requires StrictlyInside(lineStart, rect) && StrictlyInside(lineEnd, rect)
    requires (s.x == e.x && (s.x == rect.x as real || s.x == (rect.x + rect.width) as real))
          || (s.y == e.y && (s.y == rect.y as real || s.y == (rect.y + rect.height) as real))
    ensures !Intersects(lineStart, lineEnd, s, e)
  {
    if Intersects(lineStart, lineEnd, s, e) {
      IntersectionIsSharedPoint(lineStart, lineEnd, s, e);
      var t := FractionA(lineStart, lineEnd, s, e);
      var u := FractionB(lineStart, lineEnd, s, e);
      Between(rect.x as real, (rect.x + rect.width) as real, lineStart.x, lineEnd.x, t);
      Between(rect.y as real, (rect.y + rect.height) as real, lineStart.y, lineEnd.y, t);
      assert false;
    }
  }

  /** A point between two points strictly inside an interval is strictly inside it. */
  lemma Between(lo: real, hi: real, p: real, q: real, t: real)
    requires lo < p < hi && lo < q < hi && 0.0 <= t <= 1.0
    ensures lo < p + t * (q - p) < hi
  {
    if p <= q {
      NonNegativeProduct(t, q - p);
      NonNegativeProduct(1.0 - t, q - p);
    } else {
      NonNegativeProduct(t, p - q);
      NonNegativeProduct(1.0 - t, p - q);
    }
  }


  /** The four edges in the order the rectangle test visits them: top, left, bottom, right. */
  function Edge(rect: Rectangle, i: nat): (Vector2, Vector2)
    requires i < 4
  {
    var w, h := rect.width as real, rect.height as real;
    match i
    case 0 => (Corner(rect), Sum(Corner(rect), w, 0.0))
    case 1 => (Corner(rect), Sum(Corner(rect), 0.0, h))
    case 2 => (Sum(Corner(rect), 0.0, h), Sum(Corner(rect), w, h))
    case 3 => (Sum(Corner(rect), w, 0.0), Sum(Corner(rect), w, h))
  }

  /**
    Completeness for rectangles: a segment that shares a point with an edge it
    is not parallel to is reported as intersecting the rectangle.
   */
  lemma {:induction false} EdgeContactIsDetected(lineStart: Vector2, lineEnd: Vector2, rect: Rectangle, i: nat, t: real, u: real)
    requires i < 4
    requires Denominator(lineStart, lineEnd, Edge(rect, i).0, Edge(rect, i).1) != 0.0
    requires 0.0 <= t <= 1.0 && 0.0 <= u <= 1.0
    requires PointOn(lineStart, lineEnd, t) == PointOn(Edge(rect, i).0, Edge(rect, i).1, u)
    ensures IntersectsRectangle(lineStart, lineEnd, rect)
  {
    SharedPointIsIntersection(lineStart, lineEnd, Edge(rect, i).0, Edge(rect, i).1, t, u);
  }

  /** Turns a direction a quarter turn counter-clockwise (y axis pointing down): (x, y) to (y, -x). */
  function RotateDirectionCounterClockwise(dir: Vector2): (r: Vector2)
    ensures Cross(dir, r) == -(dir.x * dir.x + dir.y * dir.y)
    ensures r.x * dir.x + r.y * dir.y == 0.0
    ensures r.x * r.x + r.y * r.y == dir.x * dir.x + dir.y * dir.y
    ensures dir == Zero ==> r == Zero
  {
    Vector2(dir.y, dir.x * -1.0)
  }

  /** Turns a direction a quarter turn clockwise: (x, y) to (-y, x); undone by the counter-clockwise turn. */
  function RotateDirectionClockwise(dir: Vector2): (r: Vector2)
    ensures RotateDirectionCounterClockwise(r) == dir
    ensures r.x * dir.x + r.y * dir.y == 0.0
  {
    Vector2(dir.y * -1.0, dir.x)
  }

  /** The two quarter turns are inverse to each other, and four clockwise turns are the identity. */
  lemma QuarterTurns(dir: Vector2)
    ensures RotateDirectionClockwise(RotateDirectionCounterClockwise(dir)) == dir
    ensures RotateDirectionCounterClockwise(RotateDirectionClockwise(dir)) == dir
    ensures RotateDirectionClockwise(RotateDirectionClockwise(RotateDirectionClockwise(RotateDirectionClockwise(dir)))) == dir
  {
  }

  /**
    The opposite direction as the source computes it: (x, y) to (-y, -x).
    This swaps the components as well as negating them; see HalfTurn.
   */
  function OppositeDirection(dir: Vector2): (r: Vector2)
    ensures r == HalfTurn(Vector2(dir.y, dir.x))
  {
    Vector2(dir.y * -1.0, dir.x * -1.0)
  }

  /** OppositeDirection is a half turn only on the diagonal x == y. */
  lemma OppositeDirectionIsNotHalfTurn(dir: Vector2)
    ensures OppositeDirection(dir) == HalfTurn(dir) <==> dir.x == dir.y
    ensures OppositeDirection(Vector2(1.0, 0.0)) == Vector2(0.0, -1.0)
    ensures HalfTurn(Vector2(1.0, 0.0)) == Vector2(-1.0, 0.0)
  {
  }

  /** The 180 degree rotation the documentation of OppositeDirection promises. */
  function HalfTurn(dir: Vector2): (r: Vector2)
    ensures r == RotateDirectionClockwise(RotateDirectionClockwise(dir))
    ensures Add(dir, r) == Zero
  {
    Vector2(-dir.x, -dir.y)
  }
}

=== FILE: host.dfy ===
/**
  The two pieces of the hosting framework's game object that the engine
  consults: whether the window has focus, and whether an exit was requested.
 */
module Host {

  class Game {
    /** Whether the game window currently has focus. */
    var isActive: bool
    /** Set once the game has asked the framework to close it. */
    var exitRequested: bool

    constructor (isActive: bool)
      ensures this.isActive == isActive && !exitRequested
    {
      this.isActive := isActive;
      exitRequested := false;
    }

    /** Asks the framework to end the game loop. */
    method Exit()
      modifies this`exitRequested
      ensures exitRequested
    {
      exitRequested := true;
    }
  }
}

=== FILE: input.dfy ===
/**
  Edge-triggered input. Each frame the engine keeps the previous and the
  current snapshot of the keyboard, the first gamepad and the mouse; a control
  is "just pressed" when it is down now, was up one frame earlier, and the game
  window has focus. The snapshots the framework would sample are parameters of
  `Update`.
 */
module InputSampling {
  import opened Host

  /** Keyboard keys; only the ones the engine reacts to are named. */
  datatype Key = Escape | F11 | F12 | OtherKey(code: int)

  /** Gamepad buttons; only Back is named. */
  datatype Button = Back | OtherButton(code: int)

  /** Cursor position and the state of the three mouse buttons. */
  datatype MouseState = MouseState(x: int, y: int, leftPressed: bool, rightPressed: bool, middlePressed: bool)

  /** The framework's default mouse snapshot: at the origin, nothing pressed. */
  const NoMouse := MouseState(0, 0, false, false, false)

  class Input {
    /** The game whose focus gates every query. */
    const game: Game
    var oldKeyboard: set<Key>
    var keyboard: set<Key>
    var oldGamePad: set<Button>
    var gamePad: set<Button>
    var oldMouse: MouseState
    var mouse: MouseState

    /** Attaches the input system to a game; all snapshots start empty. */
    constructor Init(game: Game)
      ensures this.game == game
      ensures oldKeyboard == keyboard == {} && oldGamePad == gamePad == {}
      ensures oldMouse == mouse == NoMouse
    {
      this.game := game;
      oldKeyboard, keyboard := {}, {};
      oldGamePad, gamePad := {}, {};
      oldMouse, mouse := NoMouse, NoMouse;
    }

    /** Shifts every current snapshot into the previous one and stores the new samples. */
    method Update(keyboardNow: set<Key>, gamePadNow: set<Button>, mouseNow: MouseState)
      modifies this
      ensures oldKeyboard == old(keyboard) && keyboard == keyboardNow
      ensures oldGamePad == old(gamePad) && gamePad == gamePadNow
      ensures oldMouse == old(mouse) && mouse == mouseNow
    {
      oldKeyboard := keyboard;
      keyboard := keyboardNow;
      oldGamePad := gamePad;
      gamePad := gamePadNow;
      oldMouse := mouse;
      mouse := mouseNow;
    }

    /** A rising edge seen while the game has focus. */
    function JustPressed(isPressed: bool, wasPressed: bool): (r: bool)
      reads game`isActive
      ensures r ==> isPressed && !wasPressed
      ensures !game.isActive ==> !r
      ensures game.isActive && isPressed && !wasPressed ==> r
    {
      isPressed && !wasPressed && game.isActive
    }

    /** Whether `key` is held in the current snapshot while the game has focus. */
    function IsKeyDown(key: Key): (r: bool)
      reads this, game`isActive
      ensures r <==> key in keyboard && game.isActive
    {
      key in keyboard && game.isActive
    }

    /** Whether `key` went down between the previous snapshot and the current one. */
    function IsKeyPressed(key: Key): (r: bool)
      reads this, game`isActive
      ensures r ==> IsKeyDown(key)
      ensures r <==> IsKeyDown(key) && key !in oldKeyboard
    {
      JustPressed(key in keyboard, key in oldKeyboard)
    }

    function IsLeftClickPressed(): (r: bool)
      reads this, game`isActive
      ensures r <==> game.isActive && mouse.leftPressed && !oldMouse.leftPressed
    {
      JustPressed(mouse.leftPressed, oldMouse.leftPressed)
    }

    function IsRightClickPressed(): (r: bool)
      reads this, game`isActive
      ensures r <==> game.isActive && mouse.rightPressed && !oldMouse.rightPressed
    {
      JustPressed(mouse.rightPressed, oldMouse.rightPressed)
    }

    function IsMiddleClickPressed(): (r: bool)
      reads this, game`isActive
      ensures r <==> game.isActive && mouse.middlePressed && !oldMouse.middlePressed
    {
      JustPressed(mouse.middlePressed, oldMouse.middlePressed)
    }

    /**
      Holding a key through three consecutive samples reports it as pressed
      after the first sample only; a key that stays down is not pressed again.
     */
    method HoldKey(key: Key, others: set<Key>) returns (first: bool, second: bool, third: bool)
      requires game.isActive && key !in keyboard
      modifies this
      ensures first && !second && !third
      ensures keyboard == oldKeyboard == others + {key}
      ensures gamePad == oldGamePad == old(gamePad) && mouse == oldMouse == old(mouse)
    {
      Update(others + {key}, gamePad, mouse);
      first := IsKeyPressed(key);
      Update(others + {key}, gamePad, mouse);
      second := IsKeyPressed(key);
      Update(others + {key}, gamePad, mouse);
      third := IsKeyPressed(key);
    }

    /** Without focus the engine sees no key held and no key or button pressed. */
    lemma InactiveGameSeesNothing(key: Key)
      requires !game.isActive
      ensures !IsKeyDown(key) && !IsKeyPressed(key)
      ensures !IsLeftClickPressed() && !IsRightClickPressed() && !IsMiddleClickPressed()
    {
    }

    /** When the keyboard did not change between two samples, no key counts as pressed. */
    lemma RepeatedSampleIsNotPressed(key: Key)
      requires keyboard == oldKeyboard
      ensures !IsKeyPressed(key)
    {
    }
  }
}

=== FILE: json.dfy ===
/**
  Reading a required property of a JSON token, for the engine's loaders.
  A token is an object (properties by name), an array or a scalar value. The
  expected type of the property is a kind tag; the exception the source
  throws becomes the `Failure` of a result.
 */
module JsonReading {

  datatype Scalar = Null | Boolean(b: bool) | Integer(i: int) | Float(f: real) | Text(s: string)

  datatype Token = Object(properties: map<string, Token>) | Array(items: seq<Token>) | Value(scalar: Scalar)

  /** The token types a caller can ask for: any token, a container (object or array), or one concrete type. */
  datatype Kind = AnyToken | Container | ObjectKind | ArrayKind | ValueKind

  /**
    Why a lookup failed: the engine's own serialization error, with its
    message, or the JSON library refusing to look up a property name on a
    token that has no named properties, with the runtime type of that token.
   */
  datatype JsonError = SerializationError(message: string) | NoNamedChildren(tokenType: string)

  datatype Result<T> = Success(value: T) | Failure(error: JsonError)

  /** Whether `t` is an instance of the token type `k`. */
  predicate Is(t: Token, k: Kind)
  {
    match k
    case AnyToken => true
    case Container => t.Object? || t.Array?
    case ObjectKind => t.Object?
    case ArrayKind => t.Array?
    case ValueKind => t.Value?
  }

  /** The runtime type of a token: the most specific kind it belongs to. */
  function KindOf(t: Token): (k: Kind)
    ensures Is(t, k)
    ensures forall other :: Is(t, other) ==> other == k || other == AnyToken || other == Container
  {
    match t
    case Object(_) => ObjectKind
    case Array(_) => ArrayKind
    case Value(_) => ValueKind
  }

  /** The full name of the library type a kind stands for. */
  function TypeName(k: Kind): string
  {
    match k
    case AnyToken => "Newtonsoft.Json.Linq.JToken"
    case Container => "Newtonsoft.Json.Linq.JContainer"
    case ObjectKind => "Newtonsoft.Json.Linq.JObject"
    case ArrayKind => "Newtonsoft.Json.Linq.JArray"
    case ValueKind => "Newtonsoft.Json.Linq.JValue"
  }

  /** The message for a property that is absent. */
  function MissingMessage(name: string): string
  {
    "Missing expected " + name + " property"
  }

  /** The message for a property of the wrong type; `actual` is the token found. */
  function MismatchMessage(expected: Kind, name: string, actual: Token): string
  {
    "Expected " + TypeName(expected) + " for " + name + " property, got " + TypeName(KindOf(actual))
  }

  /**
    The property `name` of `token`, which must be present and of kind `kind`.
    A missing property is reported before a type mismatch. A JSON null stored
    under `name` is present: it is a value token.
   */
  function GetPropertyOrThrow(token: Token, name: string, kind: Kind): (r: Result<Token>)
    ensures r.Success? <==> token.Object? && name in token.properties && Is(token.properties[name], kind)
    ensures r.Success? ==> r.value == token.properties[name] && Is(r.value, kind)
    ensures !token.Object? ==> r == Failure(NoNamedChildren(TypeName(KindOf(token))))
    ensures token.Object? && name !in token.properties ==> r == Failure(SerializationError(MissingMessage(name)))
    ensures token.Object? && name in token.properties && !Is(token.properties[name], kind) ==>
      r == Failure(SerializationError(MismatchMessage(kind, name, token.properties[name])))
  {
    match token
    case Object(properties) =>
      if name !in properties then Failure(SerializationError(MissingMessage(name)))
      else if !Is(properties[name], kind) then Failure(SerializationError(MismatchMessage(kind, name, properties[name])))
      else Success(properties[name])
    case _ => Failure(NoNamedChildren(TypeName(KindOf(token))))
  }

  /** A missing-property message never reads as a type-mismatch message, so the two failures are told apart. */
  lemma MessagesDiffer(name: string, expected: Kind, other: string, actual: Token)
    ensures MissingMessage(name) != MismatchMessage(expected, other, actual)
  {
    assert MissingMessage(name)[0] == 'M';
    assert MismatchMessage(expected, other, actual)[0] == 'E';
  }

  /**
    A type-mismatch failure only comes from a property that is present: a
    missing property is always reported as missing.
   */
  lemma MissingTakesPrecedence(token: Token, name: string, kind: Kind, expected: Kind, other: string, actual: Token)
    requires token.Object? && name !in token.properties
    ensures GetPropertyOrThrow(token, name, kind) != Failure(SerializationError(MismatchMessage(expected, other, actual)))
  {
    MessagesDiffer(name, expected, other, actual);
  }

  /**
    Storing a token under `name` and reading it back, as its own kind or as
    any kind it belongs to, yields that token; every other kind is refused
    with the type-mismatch message.
   */
  lemma StoreThenGet(properties: map<string, Token>, name: string, v: Token, kind: Kind)
    ensures Is(v, kind) ==> GetPropertyOrThrow(Object(properties[name := v]), name, kind) == Success(v)
    ensures GetPropertyOrThrow(Object(properties[name := v]), name, KindOf(v)) == Success(v)
    ensures !Is(v, kind) ==>
      GetPropertyOrThrow(Object(properties[name := v]), name, kind) == Failure(SerializationError(MismatchMessage(kind, name, v)))
  {
  }

  /** Reading a property does not depend on the other properties of the object. */
  lemma OtherPropertiesIrrelevant(properties: map<string, Token>, name: string, other: string, v: Token, kind: Kind)
    requires other != name
    ensures GetPropertyOrThrow(Object(properties[other := v]), name, kind) == GetPropertyOrThrow(Object(properties), name, kind)
  {
  }
}

=== FILE: manager.dfy ===
/**
  The object lifecycle manager. It keeps the live objects and a queue of
  objects waiting to be admitted. Instantiation only queues an object; each
  update pass updates the enabled live objects, then drops the ones marked for
  removal, then admits the queue. Drawing visits the visible live objects
  sorted by layer.
 */
module ObjectManagement {
  import opened GameObjects
  import opened Selection

  /**
    What an object's own per-frame update does that the manager can observe:
    whether it marks itself for removal, and which objects it instantiates,
    in order. Anything else an update does is outside this model.
   */
  datatype Reaction = Reaction(markForRemoval: bool, spawn: seq<GameObject>)

  /** The objects instantiated by the updates of `updated`, in update order. */
  function Spawned(react: GameObject -> Reaction, updated: seq<GameObject>): (r: seq<GameObject>)
    ensures |updated| == 0 ==> r == []
  {
    if |updated| == 0 then []
    else Spawned(react, updated[..|updated| - 1]) + react(updated[|updated| - 1]).spawn
  }

  /**
    Whether each object will be marked for removal once the update pass is
    over: it was marked already, or it is enabled and its update marks it.
   */
  function RemovalOutcome(s: seq<GameObject>, react: GameObject -> Reaction): (m: seq<bool>)
    reads s`removalMark, s`enabled
    ensures |m| == |s|
    ensures forall i :: 0 <= i < |s| ==> m[i] == (s[i].removalMark || (s[i].enabled && react(s[i]).markForRemoval))
  {
    if |s| == 0 then []
    else
      var x := s[|s| - 1];
      RemovalOutcome(s[..|s| - 1], react) + [x.removalMark || (x.enabled && react(x).markForRemoval)]
  }

  /** Updating one more object appends what it instantiates. */
  lemma SpawnedSnoc(react: GameObject -> Reaction, updated: seq<GameObject>, g: GameObject)
    ensures Spawned(react, updated + [g]) == Spawned(react, updated) + react(g).spawn
  {
    assert (updated + [g])[..|updated|] == updated;
  }

  /** Every object that the update of one of the objects of `s` may instantiate. */
  function SpawnSet(s: seq<GameObject>, react: GameObject -> Reaction): set<GameObject>
  {
    set g, x | g in s && x in react(g).spawn :: x
  }

  lemma SpawnSetCovers(s: seq<GameObject>, react: GameObject -> Reaction, g: GameObject)
    requires g in s
    ensures forall i :: 0 <= i < |react(g).spawn| ==> react(g).spawn[i] in SpawnSet(s, react)
  {
    forall i | 0 <= i < |react(g).spawn|
      ensures react(g).spawn[i] in SpawnSet(s, react)
    {
      assert react(g).spawn[i] in react(g).spawn;
    }
  }

  /** One step of a loop over `s`. */
  lemma SpawnedStep(react: GameObject -> Reaction, s: seq<GameObject>, i: nat)
    requires i < |s|
    ensures s[..i + 1] == s[..i] + [s[i]]
    ensures Spawned(react, s[..i + 1]) == Spawned(react, s[..i]) + react(s[i]).spawn
  {
    assert s[..i + 1] == s[..i] + [s[i]];
    SpawnedSnoc(react, s[..i], s[i]);
  }

  /** The last step of a loop over `s`. */
  lemma SpawnedWhole(react: GameObject -> Reaction, s: seq<GameObject>)
    ensures Spawned(react, s[..|s|]) == Spawned(react, s)
  {
    assert s[..|s|] == s;
  }

  /**
    After an update pass whose marks are `outcome` (the marks the update loop
    leaves), the survivors `Select(live, Not(outcome))` are unmarked; so every
    marked object of the new live list is one of the admitted objects `admitted`.
   */
  lemma MarkedAreAdmitted(live: seq<GameObject>, outcome: seq<bool>, admitted: seq<GameObject>)
    requires MarkedMask(live) == outcome
    ensures forall x :: x in Select(live, Not(outcome)) + admitted && x.removalMark ==> x in admitted
  {
    forall x | x in Select(live, Not(outcome)) + admitted && x.removalMark
      ensures x in admitted
    {
      SelectMembership(live, Not(outcome), x);
    }
  }

  /** The enabled objects are exactly the selected ones. */
  lemma EnabledSelection(s: seq<GameObject>)
    ensures forall x :: x in Select(s, EnabledMask(s)) <==> x in s && x.enabled
  {
    forall x {
      SelectMembership(s, EnabledMask(s), x);
    }
  }

  /** The visible objects are exactly the selected ones. */
  lemma VisibleSelection(s: seq<GameObject>)
    ensures forall x :: x in Select(s, VisibleMask(s)) <==> x in s && x.visible
  {
    forall x {
      SelectMembership(s, VisibleMask(s), x);
    }
  }

  /** The unmarked objects are exactly the ones kept. */
  lemma UnmarkedSelection(s: seq<GameObject>)
    ensures forall x :: x in Select(s, Not(MarkedMask(s))) <==> x in s && !x.removalMark
  {
    forall x {
      SelectMembership(s, Not(MarkedMask(s)), x);
    }
  }

  /** The objects in draw order: the layer snapshot of `v` sorted by layer, without the layers. */
  function DrawOrder(v: seq<GameObject>): seq<GameObject>
    reads v`layer
  {
    Firsts(SortByKey(Layers(v)))
  }

  /** The draw order is a permutation of `v`. */
  lemma DrawOrderPermutes(v: seq<GameObject>)
    ensures multiset(DrawOrder(v)) == multiset(v)
  {
    assert Firsts(Layers(v)) == v;
    SortFirsts(Layers(v));
  }

  /** The draw order holds exactly the objects of `v`. */
  lemma DrawOrderMembers(v: seq<GameObject>)
    ensures forall x :: x in DrawOrder(v) ==> x in v
    ensures forall x :: x in v ==> x in DrawOrder(v)
  {
    DrawOrderPermutes(v);
    forall x | x in DrawOrder(v)
      ensures x in v
    {
      assert x in multiset(DrawOrder(v));
    }
    forall x | x in v
      ensures x in DrawOrder(v)
    {
      assert x in multiset(v);
    }
  }

  /** After sorting, every pair still carries its object's layer. */
  lemma SortedLayersCurrent(v: seq<GameObject>)
    ensures LayersCurrent(SortByKey(Layers(v)))
  {
    var pairs := Layers(v);
    var sorted := SortByKey(pairs);
    forall y | y in sorted
      ensures y.1 == y.0.layer
    {
      assert y in multiset(pairs);
      var i :| 0 <= i < |pairs| && pairs[i] == y;
    }
  }

  /** The draw order visits layers in ascending order. */
  lemma DrawOrderSorted(v: seq<GameObject>)
    ensures var r := DrawOrder(v); forall i, j :: 0 <= i < j < |r| ==> r[i].layer <= r[j].layer
  {
    var sorted := SortByKey(Layers(v));
    SortIsSorted(Layers(v));
    SortedLayersCurrent(v);
    var r := DrawOrder(v);
    forall i, j | 0 <= i < j < |r|
      ensures r[i].layer <= r[j].layer
    {
      assert r[i] == sorted[i].0 && r[j] == sorted[j].0;
    }
  }

  /** Within each layer the draw order is the order of `v`. */
  lemma DrawOrderStable(v: seq<GameObject>, k: int)
    ensures OnLayer(DrawOrder(v), k) == OnLayer(v, k)
  {
    var pairs := Layers(v);
    assert LayersCurrent(pairs);
    assert Firsts(pairs) == v;
    SortedLayersCurrent(v);
    WithKeyIsOnLayer(SortByKey(pairs), k);
    SortIsStable(pairs, k);
    WithKeyIsOnLayer(pairs, k);
  }

  /** Within every layer the draw order is the order of `v`. */
  lemma DrawOrderStableEverywhere(v: seq<GameObject>)
    ensures forall k :: OnLayer(DrawOrder(v), k) == OnLayer(v, k)
  {
    forall k {
      DrawOrderStable(v, k);
    }
  }

  class GameObjectManager {
    /** The live objects, in admission order. */
    var gameObjects: seq<GameObject>
    /** Objects instantiated since the last update pass, in instantiation order. */
    var toInstantiate: seq<GameObject>

    constructor ()
      ensures gameObjects == [] && toInstantiate == []
    {
      gameObjects := [];
      toInstantiate := [];
    }

    /**
      Queues `g` for admission at the end of the current update pass and
      initializes it. The live list is untouched, so `g` is neither updated
      nor drawn before it is admitted.
     */
    method Instantiate(g: GameObject)
      modifies this`toInstantiate, g`visible
      ensures toInstantiate == old(toInstantiate) + [g]
      ensures gameObjects == old(gameObjects)
      ensures g.visible == (old(g.visible) && g.sprite.Some?)
    {
      toInstantiate := toInstantiate + [g];
      g.Initialize();
    }

    /** The enabled live objects, in live-list order. */
    function GetUpdatableGameObjects(): (r: seq<GameObject>)
      reads this`gameObjects, gameObjects`enabled
      ensures forall x :: x in r ==> x in gameObjects && x.enabled
      ensures forall x :: x in gameObjects && x.enabled ==> x in r
      ensures (forall i :: 0 <= i < |gameObjects| ==> gameObjects[i].enabled) ==> r == gameObjects
      ensures r == Select(gameObjects, EnabledMask(gameObjects))
    {
      EnabledSelection(gameObjects);
      SelectAllOrNothing(gameObjects, EnabledMask(gameObjects));
      Select(gameObjects, EnabledMask(gameObjects))
    }

    /**
      The visible live objects sorted by ascending layer; objects on the same
      layer keep their live-list order.
     */
    function GetDrawableGameObjects(): (r: seq<GameObject>)
      reads this`gameObjects, gameObjects`visible, gameObjects`layer
      ensures multiset(r) == multiset(Select(gameObjects, VisibleMask(gameObjects)))
      ensures forall x :: x in r ==> x in gameObjects && x.visible
      ensures forall x :: x in gameObjects && x.visible ==> x in r
      ensures forall i, j :: 0 <= i < j < |r| ==> r[i].layer <= r[j].layer
      ensures forall k :: OnLayer(r, k) == OnLayer(Select(gameObjects, VisibleMask(gameObjects)), k)
    {
      var visible := Select(gameObjects, VisibleMask(gameObjects));
      assert forall i :: 0 <= i < |visible| ==> visible[i] in visible && visible[i] in gameObjects;
      VisibleSelection(gameObjects);
      DrawOrderMembers(visible);
      DrawOrderPermutes(visible);
      DrawOrderSorted(visible);
      DrawOrderStableEverywhere(visible);
      var r := DrawOrder(visible);
      assert forall x :: x in r ==> x in visible;
      assert forall x :: x in visible ==> x in gameObjects && x.visible;
      r
    }

    /** Drops every live object marked for removal; the others keep their order. */
    method RemoveMarkedForRemoval()
      modifies this`gameObjects
      ensures gameObjects == old(Select(gameObjects, Not(MarkedMask(gameObjects))))
      ensures forall x :: x in gameObjects <==> x in old(gameObjects) && !x.removalMark
      ensures |gameObjects| == old(|gameObjects| - |Select(gameObjects, MarkedMask(gameObjects))|)
    {
      var marks := MarkedMask(gameObjects);
      UnmarkedSelection(gameObjects);
      SelectSplits(gameObjects, marks);
      gameObjects := Select(gameObjects, Not(marks));
    }

    /** Appends the queue to the live list and empties it; with an empty queue nothing changes. */
    method AddInstantiated()
      modifies this`gameObjects, this`toInstantiate
      ensures gameObjects == old(gameObjects) + old(toInstantiate)
      ensures toInstantiate == []
      ensures old(toInstantiate) == [] ==> gameObjects == old(gameObjects)
    {
      if |toInstantiate| > 0 {
        gameObjects := gameObjects + toInstantiate;
        toInstantiate := [];
      }
    }

    /** One object's own update: it may mark itself for removal and instantiate objects. */
    method UpdateObject(g: GameObject, react: GameObject -> Reaction)
      modifies g`removalMark, this`toInstantiate, react(g).spawn`visible
      ensures toInstantiate == old(toInstantiate) + react(g).spawn
      ensures g.removalMark == (old(g.removalMark) || react(g).markForRemoval)
      ensures forall s :: old(allocated(s)) && s in react(g).spawn ==> s.visible == (old(s.visible) && s.sprite.Some?)
    {
      var reaction := react(g);
      if reaction.markForRemoval {
        g.MarkForRemoval();
      }
      var j := 0;
      while j < |reaction.spawn|
        invariant 0 <= j <= |reaction.spawn|
        invariant toInstantiate == old(toInstantiate) + reaction.spawn[..j]
        invariant g.removalMark == (old(g.removalMark) || reaction.markForRemoval)
        invariant forall s :: old(allocated(s)) && s in reaction.spawn[..j] ==> s.visible == (old(s.visible) && s.sprite.Some?)
        invariant forall s :: old(allocated(s)) && s in reaction.spawn && s !in reaction.spawn[..j] ==> s.visible == old(s.visible)
      {
        assert reaction.spawn[..j + 1] == reaction.spawn[..j] + [reaction.spawn[j]];
        Instantiate(reaction.spawn[j]);
        j := j + 1;
      }
    }

    /**
      The update loop proper: updates each of `objects`, in order. Objects
      instantiated by an update are only queued.
     */
    method UpdateEach(live: seq<GameObject>, objects: seq<GameObject>, react: GameObject -> Reaction)
      requires forall x :: x in objects ==> x in live
      modifies this`toInstantiate, live`removalMark, SpawnSet(live, react)`visible
      ensures toInstantiate == old(toInstantiate) + Spawned(react, objects)
      ensures forall j {:trigger live[j].removalMark} :: 0 <= j < |live| ==>
        live[j].removalMark == (old(live[j].removalMark) || (react(live[j]).markForRemoval && live[j] in objects))
      ensures forall s :: old(allocated(s)) && s in Spawned(react, objects) ==> s.visible == (old(s.visible) && s.sprite.Some?)
      ensures forall s :: old(allocated(s)) && s in SpawnSet(live, react) && s !in Spawned(react, objects) ==> s.visible == old(s.visible)
    {
      var i := 0;
      while i < |objects|
        invariant 0 <= i <= |objects|
        invariant toInstantiate == old(toInstantiate) + Spawned(react, objects[..i])
        invariant forall j {:trigger live[j].removalMark} :: 0 <= j < |live| ==>
          live[j].removalMark == (old(live[j].removalMark) || (react(live[j]).markForRemoval && live[j] in objects[..i]))
        invariant forall s :: old(allocated(s)) && s in Spawned(react, objects[..i]) ==> s.visible == (old(s.visible) && s.sprite.Some?)
        invariant forall s :: old(allocated(s)) && s in SpawnSet(live, react) && s !in Spawned(react, objects[..i]) ==> s.visible == old(s.visible)
      {
        var g := objects[i];
        SpawnedStep(react, objects, i);
        SpawnSetCovers(live, react, g);
        UpdateObject(g, react);
        i := i + 1;
      }
      SpawnedWhole(react, objects);
    }

    /**
      The update loop: every object that is live and enabled when the loop
      starts is updated once, in live-list order. Objects instantiated by an
      update are only queued, so none of them is updated in the same loop.
     */
    method UpdateEnabled(react: GameObject -> Reaction) returns (updated: seq<GameObject>)
      modifies this`toInstantiate, gameObjects`removalMark, SpawnSet(gameObjects, react)`visible
      ensures updated == old(GetUpdatableGameObjects())
      ensures toInstantiate == old(toInstantiate) + Spawned(react, updated)
      ensures MarkedMask(gameObjects) == old(RemovalOutcome(gameObjects, react))
      ensures forall s :: old(allocated(s)) && s in Spawned(react, updated) ==> s.visible == (old(s.visible) && s.sprite.Some?)
      ensures forall s :: old(allocated(s)) && s in SpawnSet(gameObjects, react) && s !in Spawned(react, updated) ==> s.visible == old(s.visible)
    {
      var live := gameObjects;
      updated := GetUpdatableGameObjects();
      UpdateEach(live, updated, react);
      assert MarkedMask(live) == old(RemovalOutcome(live, react)) by {
        forall j | 0 <= j < |live|
          ensures MarkedMask(live)[j] == old(RemovalOutcome(live, react))[j]
        {
          assert live[j] in updated <==> old(live[j].enabled);
        }
      }
    }

    /**
      One update pass: the update loop, then the objects marked for removal,
      before or by their own update, leave the live list, and the queue is
      admitted behind the survivors. Returns the objects updated.
     */
    method UpdateGameObjects(react: GameObject -> Reaction) returns (updated: seq<GameObject>)
      modifies this`gameObjects, this`toInstantiate, gameObjects`removalMark
      modifies SpawnSet(gameObjects, react)`visible
      ensures updated == old(GetUpdatableGameObjects())
      ensures gameObjects == old(Select(gameObjects, Not(RemovalOutcome(gameObjects, react)))) + (old(toInstantiate) + Spawned(react, updated))
      ensures toInstantiate == []
      ensures |gameObjects| == old(|gameObjects| - |Select(gameObjects, RemovalOutcome(gameObjects, react))| + |toInstantiate|) + |Spawned(react, updated)|
      ensures forall s :: old(allocated(s)) && s in Spawned(react, updated) ==> s.visible == (old(s.visible) && s.sprite.Some?)
    {
      var live := gameObjects;
      ghost var outcome := RemovalOutcome(live, react);
      ghost var queue := toInstantiate;
      updated := UpdateEnabled(react);
      ghost var spawned := Spawned(react, updated);
      RemoveMarkedForRemoval();
      assert gameObjects == Select(live, Not(outcome));
      AddInstantiated();
      SelectSplits(live, outcome);
    }

    /** Draws the drawable objects one by one, in draw order; returns them in the order drawn. */
    method DrawGameObjects() returns (drawn: seq<GameObject>)
      ensures drawn == GetDrawableGameObjects()
    {
      var drawable := GetDrawableGameObjects();
      drawn := [];
      for i := 0 to |drawable|
        invariant drawn == drawable[..i]
      {
        drawn := drawn + [drawable[i]];
      }
    }
  }
}

=== FILE: origins.dfy ===
/**
  Named anchor points, in coordinates normalised to the unit square, and their
  conversion to a position on the screen.
 */
module Origins {
  import opened Primitives
  import opened Vectors

  const TopLeft := Zero
  const TopCenter := Vector2(0.5, 0.0)
  const TopRight := Vector2(1.0, 0.0)
  const CenterLeft := Vector2(0.0, 0.5)
  const Center := Vector2(0.5, 0.5)
  const CenterRight := Vector2(1.0, 0.5)
  const BottomLeft := Vector2(0.0, 1.0)
  const BottomCenter := Vector2(0.5, 1.0)
  const BottomRight := Vector2(1.0, 1.0)

  /** The nine named origins, row by row from the top left. */
  const All := [TopLeft, TopCenter, TopRight, CenterLeft, Center, CenterRight, BottomLeft, BottomCenter, BottomRight]

  /** A coordinate an anchor may take: the start, the middle or the end of an axis. */
  predicate IsAnchorCoordinate(c: real)
  {
    c == 0.0 || c == 0.5 || c == 1.0
  }

  /** A point of the unit square. */
  predicate InUnitSquare(o: Vector2)
  {
    0.0 <= o.x <= 1.0 && 0.0 <= o.y <= 1.0
  }

  /** Every named origin has both coordinates in {0, 0.5, 1}, and so lies in the unit square. */
  lemma AnchorsAreOnTheGrid()
    ensures forall i :: 0 <= i < |All| ==> IsAnchorCoordinate(All[i].x) && IsAnchorCoordinate(All[i].y)
    ensures forall i :: 0 <= i < |All| ==> InUnitSquare(All[i])
  {
  }

  /** The nine named origins are pairwise distinct, with the corners and the centre where their names say. */
  lemma AnchorsAreDistinct()
    ensures forall i, j :: 0 <= i < j < |All| ==> All[i] != All[j]
    ensures TopLeft == Vector2(0.0, 0.0) && Center == Vector2(0.5, 0.5) && BottomRight == Vector2(1.0, 1.0)
  {
  }

  /**
    Scales a normalised origin to screen coordinates. The X axis is scaled by
    the width of the actual viewport and the Y axis by the height of the
    virtual resolution; both sizes are parameters here.
   */
  function GetScreenPosition(origin: Vector2, viewportWidth: int, virtualHeight: int): (r: Vector2)
    ensures InUnitSquare(origin) && 0 <= viewportWidth && 0 <= virtualHeight ==>
      0.0 <= r.x <= viewportWidth as real && 0.0 <= r.y <= virtualHeight as real
  {
    var r := Multiply(origin, viewportWidth as real, virtualHeight as real);
    if InUnitSquare(origin) && 0 <= viewportWidth && 0 <= virtualHeight then
      NonNegativeProduct(origin.x, viewportWidth as real);
      NonNegativeProduct(1.0 - origin.x, viewportWidth as real);
      NonNegativeProduct(origin.y, virtualHeight as real);
      NonNegativeProduct(1.0 - origin.y, virtualHeight as real);
      r
    else
      r
  }

  /** The top-left origin maps to the screen's top-left corner, and the bottom-right one to (viewport width, virtual height). */
  lemma CornersOnScreen(viewportWidth: int, virtualHeight: int)
    ensures GetScreenPosition(TopLeft, viewportWidth, virtualHeight) == Zero
    ensures GetScreenPosition(BottomRight, viewportWidth, virtualHeight) == Vector2(viewportWidth as real, virtualHeight as real)
  {
  }

  /**
    The conversion is linear and works axis by axis: it maps a sum of origins
    to the sum of their positions, commutes with scaling the origin by `k`,
    and the screen X depends only on the origin's X (the screen Y only on
    its Y).
   */
  lemma ScreenPositionIsLinear(a: Vector2, b: Vector2, k: real, viewportWidth: int, virtualHeight: int)
    ensures GetScreenPosition(Add(a, b), viewportWidth, virtualHeight)
         == Add(GetScreenPosition(a, viewportWidth, virtualHeight), GetScreenPosition(b, viewportWidth, virtualHeight))
    ensures GetScreenPosition(MultiplyScalar(a, k), viewportWidth, virtualHeight)
         == MultiplyScalar(GetScreenPosition(a, viewportWidth, virtualHeight), k)
    ensures GetScreenPosition(a, viewportWidth, virtualHeight).x == GetScreenPosition(Vector2(a.x, 0.0), viewportWidth, virtualHeight).x
    ensures GetScreenPosition(a, viewportWidth, virtualHeight).y == GetScreenPosition(Vector2(0.0, a.y), viewportWidth, virtualHeight).y
  {
    MultiplyIsLinear(a, b, k, viewportWidth as real, virtualHeight as real);
    MultiplyIsLinear(a, Zero, k, viewportWidth as real, virtualHeight as real);
  }

  /**
    The two axes use different resolutions: with a 1000-pixel-wide viewport
    showing a 1280x720 virtual screen, the centre origin lands at (500, 360),
    which is not the centre (640, 360) of the virtual screen.
   */
  lemma CenterMixesResolutions()
    ensures GetScreenPosition(Center, 1000, 720) == Vector2(500.0, 360.0)
    ensures GetScreenPosition(Center, 1000, 720) != Vector2(1280.0 * 0.5, 720.0 * 0.5)
  {
  }
}

=== FILE: primitives.dfy ===
/**
  The value types the engine borrows from its rendering framework, and the two
  integer conversions of the C# language that the engine relies on.

  Single-precision floats are modelled as exact `real`s; the only rounding kept
  is the one the source writes out: the `(int)` cast, which truncates toward
  zero, and integer division, which also truncates toward zero.
 */
module Primitives {

  datatype Option<+T> = None | Some(value: T)

  /** A 2D vector of floats (the framework's Vector2). */
  datatype Vector2 = Vector2(x: real, y: real)

  const Zero := Vector2(0.0, 0.0)
  const One := Vector2(1.0, 1.0)

  /** Component-wise addition (the framework's `+` operator on Vector2). */
  function Add(a: Vector2, b: Vector2): (r: Vector2)
    ensures Sub(r, b) == a
  {
    Vector2(a.x + b.x, a.y + b.y)
  }

  /** Component-wise difference (the framework's `-` operator on Vector2). */
  function Sub(a: Vector2, b: Vector2): Vector2
  {
    Vector2(a.x - b.x, a.y - b.y)
  }

  /** An integer rectangle: top-left corner and size (the framework's Rectangle). */
  datatype Rectangle = Rectangle(x: int, y: int, width: int, height: int)

  /** An RGBA colour with byte channels. */
  datatype Color = Color(r: int, g: int, b: int, a: int)

  const White := Color(255, 255, 255, 255)

  /** Sprite mirroring flags; `None` draws the sprite as authored. */
  datatype SpriteEffects = SpriteEffects(flipHorizontally: bool, flipVertically: bool)

  const NoEffects := SpriteEffects(false, false)

  /** The C# `(int)` conversion of a float: truncation toward zero. */
  function Trunc(r: real): (i: int)
    ensures 0.0 <= r ==> 0 <= i && i as real <= r < i as real + 1.0
    ensures r < 0.0 ==> i <= 0 && i as real - 1.0 < r <= i as real
  {
    if r >= 0.0 then r.Floor else -((-r).Floor)
  }

  /** Truncation differs from Dafny's `Floor` on negative non-integers. */
  lemma TruncIsNotFloor()
    ensures Trunc(-0.5) == 0 && (-0.5).Floor == -1
  {
  }

  /** A whole number converts back to itself. */
  lemma TruncOfInt(n: int)
    ensures Trunc(n as real) == n
  {
  }

  /** C# `n / 2` on ints, which truncates toward zero (Dafny's `/` is Euclidean). */
  function Half(n: int): (q: int)
    ensures 0 <= n ==> 0 <= q && q == n / 2
    ensures 0 <= n ==> n - 1 <= 2 * q <= n
    ensures n < 0 ==> q <= 0 && n <= 2 * q <= n + 1
  {
    if n >= 0 then n / 2 else -((-n) / 2)
  }

  /** The product of two non-negative reals is non-negative. */
  lemma NonNegativeProduct(x: real, y: real)
    requires 0.0 <= x && 0.0 <= y
    ensures 0.0 <= x * y
  {
  }
}

=== FILE: selection.dfy ===
/**
  The list queries the object manager builds on: selecting the elements whose
  flag is set, in their original order, and sorting objects by layer without
  disturbing the order of objects on the same layer.
 */
module Selection {
  import opened GameObjects

  /** The elements of `s` whose flag in `keep` is set, in their original order. */
  function Select<T>(s: seq<T>, keep: seq<bool>): (r: seq<T>)
    requires |keep| == |s|
    ensures |r| <= |s|
    ensures forall x :: x in r ==> x in s
  {
    if |s| == 0 then []
    else Select(s[..|s| - 1], keep[..|s| - 1]) + (if keep[|s| - 1] then [s[|s| - 1]] else [])
  }

  /** Selection distributes over concatenation, so the selected elements keep their relative order. */
  lemma {:induction false} SelectAppend<T>(s: seq<T>, keep: seq<bool>, t: seq<T>, keepT: seq<bool>)
    requires |keep| == |s| && |keepT| == |t|
    ensures Select(s + t, keep + keepT) == Select(s, keep) + Select(t, keepT)
    decreases |t|
  {
    if |t| == 0 {
      assert s + t == s && keep + keepT == keep;
    } else {
      var n := |t| - 1;
      assert (s + t)[..|s + t| - 1] == s + t[..n];
      assert (keep + keepT)[..|s + t| - 1] == keep + keepT[..n];
      SelectAppend(s, keep, t[..n], keepT[..n]);
    }
  }

  /** An element is selected exactly when it occurs at a position whose flag is set. */
  lemma {:induction false} SelectMembership<T>(s: seq<T>, keep: seq<bool>, x: T)
    requires |keep| == |s|
    ensures x in Select(s, keep) <==> exists i :: 0 <= i < |s| && s[i] == x && keep[i]
    decreases |s|
  {
    if |s| != 0 {
      var n := |s| - 1;
      SelectMembership(s[..n], keep[..n], x);
      if x in Select(s[..n], keep[..n]) {
        var i :| 0 <= i < n && s[..n][i] == x && keep[..n][i];
        assert s[i] == x && keep[i];
      }
      if exists i :: 0 <= i < |s| && s[i] == x && keep[i] {
        var i :| 0 <= i < |s| && s[i] == x && keep[i];
        if i < n {
          assert s[..n][i] == x && keep[..n][i];
        }
      }
    }
  }

  /** The flags negated. */
  function Not(keep: seq<bool>): (r: seq<bool>)
    ensures |r| == |keep| && forall i :: 0 <= i < |keep| ==> r[i] == !keep[i]
  {
    if |keep| == 0 then [] else Not(keep[..|keep| - 1]) + [!keep[|keep| - 1]]
  }

  /** Every element is selected either by the flags or by their negation, never by both. */
  lemma {:induction false} SelectSplits<T>(s: seq<T>, keep: seq<bool>)
    requires |keep| == |s|
    ensures |Select(s, keep)| + |Select(s, Not(keep))| == |s|
    decreases |s|
  {
    if |s| != 0 {
      var n := |s| - 1;
      assert Not(keep)[..n] == Not(keep[..n]);
      SelectSplits(s[..n], keep[..n]);
    }
  }

  /** Selecting with every flag set keeps everything; with none set, nothing. */
  lemma {:induction false} SelectAllOrNothing<T>(s: seq<T>, keep: seq<bool>)
    requires |keep| == |s|
    ensures (forall i :: 0 <= i < |s| ==> keep[i]) ==> Select(s, keep) == s
    ensures (forall i :: 0 <= i < |s| ==> !keep[i]) ==> Select(s, keep) == []
    decreases |s|
  {
    if |s| != 0 {
      var n := |s| - 1;
      SelectAllOrNothing(s[..n], keep[..n]);
      assert s[..n] + [s[n]] == s;
    }
  }

  /** The enabled flags of the objects, position by position. */
  function EnabledMask(s: seq<GameObject>): (m: seq<bool>)
    reads s`enabled
    ensures |m| == |s| && forall i :: 0 <= i < |s| ==> m[i] == s[i].enabled
  {
    if |s| == 0 then [] else EnabledMask(s[..|s| - 1]) + [s[|s| - 1].enabled]
  }

  /** The visible flags of the objects, position by position. */
  function VisibleMask(s: seq<GameObject>): (m: seq<bool>)
    reads s`visible
    ensures |m| == |s| && forall i :: 0 <= i < |s| ==> m[i] == s[i].visible
  {
    if |s| == 0 then [] else VisibleMask(s[..|s| - 1]) + [s[|s| - 1].visible]
  }

  /** The removal marks of the objects, position by position. */
  function MarkedMask(s: seq<GameObject>): (m: seq<bool>)
    reads s`removalMark
    ensures |m| == |s| && forall i :: 0 <= i < |s| ==> m[i] == s[i].removalMark
  {
    if |s| == 0 then [] else MarkedMask(s[..|s| - 1]) + [s[|s| - 1].removalMark]
  }

  /** Whether each object sits on layer `k`. */
  function LayerMask(s: seq<GameObject>, k: int): (m: seq<bool>)
    reads s`layer
    ensures |m| == |s| && forall i :: 0 <= i < |s| ==> m[i] == (s[i].layer == k)
  {
    if |s| == 0 then [] else LayerMask(s[..|s| - 1], k) + [s[|s| - 1].layer == k]
  }

  /** The objects on layer `k`, in their order in `s`. */
  function OnLayer(s: seq<GameObject>, k: int): seq<GameObject>
    reads s`layer
  {
    Select(s, LayerMask(s, k))
  }

  /** Each object paired with its layer, as read when the list is queried. */
  function Layers(s: seq<GameObject>): (r: seq<(GameObject, int)>)
    reads s`layer
    ensures |r| == |s| && forall i :: 0 <= i < |s| ==> r[i] == (s[i], s[i].layer)
  {
    if |s| == 0 then [] else Layers(s[..|s| - 1]) + [(s[|s| - 1], s[|s| - 1].layer)]
  }

  /** The first components of the pairs, in order. */
  function Firsts<T>(p: seq<(T, int)>): (r: seq<T>)
    ensures |r| == |p| && forall i :: 0 <= i < |p| ==> r[i] == p[i].0
  {
    if |p| == 0 then [] else Firsts(p[..|p| - 1]) + [p[|p| - 1].0]
  }

  /** Whether each pair carries the key `k`. */
  function KeyMask<T>(p: seq<(T, int)>, k: int): (m: seq<bool>)
    ensures |m| == |p| && forall i :: 0 <= i < |p| ==> m[i] == (p[i].1 == k)
  {
    if |p| == 0 then [] else KeyMask(p[..|p| - 1], k) + [p[|p| - 1].1 == k]
  }

  /** The pairs with key `k`, in their order in `p`. */
  function WithKey<T>(p: seq<(T, int)>, k: int): seq<(T, int)>
  {
    Select(p, KeyMask(p, k))
  }

  /** Keys never decrease along the sequence. */
  predicate SortedByKey<T>(p: seq<(T, int)>)
  {
    forall i, j :: 0 <= i < j < |p| ==> p[i].1 <= p[j].1
  }

  /** Inserts `x` into a key-sorted sequence after every pair whose key is at most its own. */
  function InsertByKey<T>(t: seq<(T, int)>, x: (T, int)): (r: seq<(T, int)>)
    ensures multiset(r) == multiset(t) + multiset{x}
  {
    if |t| == 0 then [x]
    else if t[|t| - 1].1 <= x.1 then t + [x]
    else
      assert t == t[..|t| - 1] + [t[|t| - 1]];
      InsertByKey(t[..|t| - 1], x) + [t[|t| - 1]]
  }

  /** Stable insertion sort by ascending key. */
  function SortByKey<T>(p: seq<(T, int)>): (r: seq<(T, int)>)
    ensures multiset(r) == multiset(p)
  {
    if |p| == 0 then []
    else
      assert p == p[..|p| - 1] + [p[|p| - 1]];
      InsertByKey(SortByKey(p[..|p| - 1]), p[|p| - 1])
  }

  lemma {:induction false} InsertKeepsSorted<T>(t: seq<(T, int)>, x: (T, int))
    requires SortedByKey(t)
    ensures SortedByKey(InsertByKey(t, x))
    decreases |t|
  {
    if |t| == 0 {
      SortedSnoc([], x);
      assert [] + [x] == [x];
    } else if t[|t| - 1].1 <= x.1 {
      forall z | z in t
        ensures z.1 <= x.1
      {
        SortedBelowLast(t, z);
      }
      SortedSnoc(t, x);
    } else {
      InsertKeepsSorted(t[..|t| - 1], x);
      InsertBeforeLastKeepsSorted(t, x);
    }
  }

  /** Every pair of a sorted sequence has a key at most the last one's. */
  lemma SortedBelowLast<T>(t: seq<(T, int)>, z: (T, int))
    requires SortedByKey(t) && z in t
    ensures z.1 <= t[|t| - 1].1
  {
    var i :| 0 <= i < |t| && t[i] == z;
  }

  /** The step of InsertKeepsSorted where `x` goes before the last pair. */
  lemma InsertBeforeLastKeepsSorted<T>(t: seq<(T, int)>, x: (T, int))
    requires SortedByKey(t) && |t| != 0 && t[|t| - 1].1 > x.1
    requires SortedByKey(InsertByKey(t[..|t| - 1], x))
    ensures SortedByKey(InsertByKey(t, x))
  {
    var n := |t| - 1;
    var front := InsertByKey(t[..n], x);
    InsertBeforeLast(t, x);
    forall y | y in front
      ensures y.1 <= t[n].1
    {
      InsertedBelowLast(t, x, y);
    }
    SortedSnoc(front, t[n]);
  }

  /** When `x` goes before the last pair, nothing inserted in front has a larger key than that pair. */
  lemma InsertedBelowLast<T>(t: seq<(T, int)>, x: (T, int), y: (T, int))
    requires SortedByKey(t) && |t| != 0 && t[|t| - 1].1 > x.1
    requires y in InsertByKey(t[..|t| - 1], x)
    ensures y.1 <= t[|t| - 1].1
  {
    var n := |t| - 1;
    assert y in multiset(InsertByKey(t[..n], x));
    if y != x {
      assert y in multiset(t[..n]);
      var i :| 0 <= i < n && t[..n][i] == y;
      assert t[i] == y;
    }
  }

  /** Appending a pair whose key bounds every key keeps a sequence sorted. */
  lemma SortedSnoc<T>(p: seq<(T, int)>, y: (T, int))
    requires SortedByKey(p)
    requires forall z :: z in p ==> z.1 <= y.1
    ensures SortedByKey(p + [y])
  {
    var r := p + [y];
    forall i, j | 0 <= i < j < |r|
      ensures r[i].1 <= r[j].1
    {
      if j == |r| - 1 {
        assert r[i] in p;
      }
    }
  }

  lemma {:induction false} SortIsSorted<T>(p: seq<(T, int)>)
    ensures SortedByKey(SortByKey(p))
    decreases |p|
  {
    if |p| != 0 {
      SortIsSorted(p[..|p| - 1]);
      InsertKeepsSorted(SortByKey(p[..|p| - 1]), p[|p| - 1]);
    }
  }

  /** Appending one pair extends the pairs of its own key by that pair and no other. */
  lemma WithKeySnoc<T>(p: seq<(T, int)>, x: (T, int), k: int)
    ensures WithKey(p + [x], k) == WithKey(p, k) + Own(x, k)
  {
    var m := KeyMask(p + [x], k);
    assert (p + [x])[..|p|] == p;
    assert m[..|p|] == KeyMask(p, k);
  }

  /** Inserting adds `x` at the end of its own key and leaves every key's order as it was. */
  lemma {:induction false} InsertIsStable<T>(t: seq<(T, int)>, x: (T, int), k: int)
    requires SortedByKey(t)
    ensures WithKey(InsertByKey(t, x), k) == WithKey(t, k) + Own(x, k)
    decreases |t|
  {
    if |t| == 0 {
      WithKeySnoc([], x, k);
      assert [] + [x] == [x];
    } else if t[|t| - 1].1 <= x.1 {
      WithKeySnoc(t, x, k);
    } else {
      var n := |t| - 1;
      var front := InsertByKey(t[..n], x);
      assert t[..n] + [t[n]] == t;
      calc {
        WithKey(InsertByKey(t, x), k);
        WithKey(front + [t[n]], k);
        { WithKeySnoc(front, t[n], k); }
        WithKey(front, k) + Own(t[n], k);
        { InsertIsStable(t[..n], x, k); }
        WithKey(t[..n], k) + Own(x, k) + Own(t[n], k);
        { assert Own(x, k) == [] || Own(t[n], k) == []; }
        WithKey(t[..n], k) + Own(t[n], k) + Own(x, k);
        { WithKeySnoc(t[..n], t[n], k); }
        WithKey(t, k) + Own(x, k);
      }
    }
  }

  /** `[x]` when `x` carries the key `k`, otherwise empty. */
  function Own<T>(x: (T, int), k: int): seq<(T, int)>
  {
    if x.1 == k then [x] else []
  }

  /** Sorting keeps, for every key, the pairs with that key in their original order. */
  lemma {:induction false} SortIsStable<T>(p: seq<(T, int)>, k: int)
    ensures WithKey(SortByKey(p), k) == WithKey(p, k)
    decreases |p|
  {
    if |p| != 0 {
      var n := |p| - 1;
      assert p[..n] + [p[n]] == p;
      calc {
        WithKey(SortByKey(p), k);
        WithKey(InsertByKey(SortByKey(p[..n]), p[n]), k);
        { SortIsSorted(p[..n]); InsertIsStable(SortByKey(p[..n]), p[n], k); }
        WithKey(SortByKey(p[..n]), k) + Own(p[n], k);
        { SortIsStable(p[..n], k); }
        WithKey(p[..n], k) + Own(p[n], k);
        { WithKeySnoc(p[..n], p[n], k); }
        WithKey(p, k);
      }
    }
  }

  /** Firsts distributes over concatenation. */
  lemma FirstsAppend<T>(p: seq<(T, int)>, q: seq<(T, int)>)
    ensures Firsts(p + q) == Firsts(p) + Firsts(q)
  {
  }

  /** Inserting a pair adds its first component to the multiset of first components. */
  lemma {:induction false} InsertFirsts<T>(t: seq<(T, int)>, x: (T, int))
    ensures multiset(Firsts(InsertByKey(t, x))) == multiset(Firsts(t)) + multiset{x.0}
    decreases |t|
  {
    if |t| == 0 {
    } else if t[|t| - 1].1 <= x.1 {
      FirstsAppend(t, [x]);
    } else {
      InsertFirsts(t[..|t| - 1], x);
      InsertFirstsBefore(t, x);
    }
  }

  /** The step of `InsertFirsts` where `x` goes before the last pair. */
  lemma InsertFirstsBefore<T>(t: seq<(T, int)>, x: (T, int))
    requires |t| != 0 && t[|t| - 1].1 > x.1
    requires multiset(Firsts(InsertByKey(t[..|t| - 1], x))) == multiset(Firsts(t[..|t| - 1])) + multiset{x.0}
    ensures multiset(Firsts(InsertByKey(t, x))) == multiset(Firsts(t)) + multiset{x.0}
  {
    var n := |t| - 1;
    var front := InsertByKey(t[..n], x);
    InsertBeforeLast(t, x);
    FirstsSnoc(front, t[n]);
    FirstsLast(t);
    MultisetSnoc(Firsts(front), Firsts(t[..n]), x.0, t[n].0);
  }

  lemma InsertBeforeLast<T>(t: seq<(T, int)>, x: (T, int))
    requires |t| != 0 && t[|t| - 1].1 > x.1
    ensures InsertByKey(t, x) == InsertByKey(t[..|t| - 1], x) + [t[|t| - 1]]
  {
  }

  lemma FirstsLast<T>(p: seq<(T, int)>)
    requires |p| != 0
    ensures Firsts(p) == Firsts(p[..|p| - 1]) + [p[|p| - 1].0]
  {
  }

  lemma MultisetSnoc<T>(a: seq<T>, b: seq<T>, x: T, y: T)
    requires multiset(a) == multiset(b) + multiset{x}
    ensures multiset(a + [y]) == multiset(b + [y]) + multiset{x}
  {
  }

  /** Appending a pair appends its first component. */
  lemma FirstsSnoc<T>(p: seq<(T, int)>, y: (T, int))
    ensures Firsts(p + [y]) == Firsts(p) + [y.0]
  {
    assert (p + [y])[..|p|] == p;
  }

  /** Sorting permutes the first components. */
  lemma {:induction false} SortFirsts<T>(p: seq<(T, int)>)
    ensures multiset(Firsts(SortByKey(p))) == multiset(Firsts(p))
    decreases |p|
  {
    if |p| != 0 {
      var n := |p| - 1;
      assert p[..n] + [p[n]] == p;
      calc {
        multiset(Firsts(SortByKey(p)));
        multiset(Firsts(InsertByKey(SortByKey(p[..n]), p[n])));
        { InsertFirsts(SortByKey(p[..n]), p[n]); }
        multiset(Firsts(SortByKey(p[..n]))) + multiset{p[n].0};
        { SortFirsts(p[..n]); }
        multiset(Firsts(p[..n])) + multiset{p[n].0};
        { FirstsAppend(p[..n], [p[n]]); }
        multiset(Firsts(p));
      }
    }
  }

  /** Every pair carries the current layer of its object. */
  predicate LayersCurrent(q: seq<(GameObject, int)>)
    reads (set y | y in q :: y.0)`layer
  {
    forall i :: 0 <= i < |q| ==> q[i].1 == q[i].0.layer
  }

  /** Appending one object extends its own layer by that object and no other layer. */
  lemma OnLayerSnoc(s: seq<GameObject>, x: GameObject, k: int)
    ensures OnLayer(s + [x], k) == OnLayer(s, k) + (if x.layer == k then [x] else [])
  {
    var m := LayerMask(s + [x], k);
    assert (s + [x])[..|s|] == s;
    assert m[..|s|] == LayerMask(s, k);
  }

  /** For pairs carrying current layers, selecting by key and selecting by layer agree. */
  lemma {:induction false} WithKeyIsOnLayer(q: seq<(GameObject, int)>, k: int)
    requires LayersCurrent(q)
    ensures Firsts(WithKey(q, k)) == OnLayer(Firsts(q), k)
    decreases |q|
  {
    if |q| != 0 {
      var n := |q| - 1;
      assert q[..n] + [q[n]] == q;
      assert LayersCurrent(q[..n]);
      WithKeyIsOnLayer(q[..n], k);
      WithKeySnoc(q[..n], q[n], k);
      FirstsAppend(WithKey(q[..n], k), Own(q[n], k));
      FirstsAppend(q[..n], [q[n]]);
      OnLayerSnoc(Firsts(q[..n]), q[n].0, k);
    }
  }
}

=== FILE: timing.dfy ===
/**
  The engine clock: the raw duration of the last frame and a time scale
  that slows down, speeds up or pauses gameplay time. The source keeps both
  in static fields; here one `Time` object holds them.
 */
module Timing {
  import opened Primitives

  class Time {
    /** Seconds elapsed during the last frame, as reported by the host. */
    var deltaTime: real
    /** 1 is normal speed, 0.5 half speed, 0 paused. */
    var timeScale: real

    /** A fresh clock has seen no frame yet and runs at normal speed. */
    constructor ()
      ensures deltaTime == 0.0 && timeScale == 1.0
      ensures DeltaTime() == UnscaledDeltaTime()
    {
      deltaTime := 0.0;
      timeScale := 1.0;
    }

    /** Gameplay time of the last frame: the raw time scaled by `timeScale`. */
    function DeltaTime(): (r: real)
      reads this
      ensures timeScale == 0.0 ==> r == 0.0
      ensures timeScale == 1.0 ==> r == deltaTime
      ensures 0.0 <= deltaTime && 0.0 <= timeScale ==> 0.0 <= r
    {
      NonNegativeOrNot(deltaTime, timeScale);
      deltaTime * timeScale
    }

    /** Wall-clock time of the last frame, ignoring the time scale. */
    function UnscaledDeltaTime(): (r: real)
      reads this
      ensures r * timeScale == DeltaTime()
      ensures timeScale == 1.0 ==> r == DeltaTime()
    {
      deltaTime
    }

    /** Records the duration of the frame that just elapsed; the time scale is not touched. */
    method UpdateDeltaTime(elapsed: real)
      modifies this`deltaTime
      ensures deltaTime == elapsed && UnscaledDeltaTime() == elapsed
      ensures timeScale == old(timeScale)
      ensures DeltaTime() == elapsed * timeScale
    {
      deltaTime := elapsed;
    }
  }

  lemma NonNegativeOrNot(x: real, y: real)
    ensures 0.0 <= x && 0.0 <= y ==> 0.0 <= x * y
  {
    if 0.0 <= x && 0.0 <= y {
      NonNegativeProduct(x, y);
    }
  }
}

=== FILE: vectors.dfy ===
/**
  Component-wise vector arithmetic: the engine's extension methods on Vector2.
  The C# overloads get distinct names here: `Sum(v, f)` is `SumScalar`,
  `Subtract(v, f)` is `SubtractScalar`, `Subtract(v, w)` is `SubtractVector`
  and `Multiply(v, f)` is `MultiplyScalar`.
 */
module Vectors {
  import opened Primitives

  /** Adds `x` to the X component and `y` to the Y component. */
  function Sum(v: Vector2, x: real, y: real): (r: Vector2)
    ensures r == Add(v, Vector2(x, y))
  {
    Vector2(v.x + x, v.y + y)
  }

  /** Adds `f` to both components. */
  function SumScalar(v: Vector2, f: real): (r: Vector2)
    ensures r == Sum(v, f, f)
  {
    Vector2(v.x + f, v.y + f)
  }

  /** Subtracts `x` from the X component and `y` from the Y component; undoes `Sum`. */
  function Subtract(v: Vector2, x: real, y: real): (r: Vector2)
    ensures Sum(r, x, y) == v
    ensures r == Sub(v, Vector2(x, y))
  {
    Vector2(v.x - x, v.y - y)
  }

  /** Subtracts `f` from both components. */
  function SubtractScalar(v: Vector2, f: real): (r: Vector2)
    ensures r == Subtract(v, f, f)
  {
    Vector2(v.x - f, v.y - f)
  }

  /** Subtracts another vector. */
  function SubtractVector(v: Vector2, w: Vector2): (r: Vector2)
    ensures r == Subtract(v, w.x, w.y)
  {
    Vector2(v.x - w.x, v.y - w.y)
  }

  /** Multiplies the X component by `x` and the Y component by `y`. */
  function Multiply(v: Vector2, x: real, y: real): (r: Vector2)
    ensures x == 1.0 && y == 1.0 ==> r == v
    ensures x == 0.0 && y == 0.0 ==> r == Zero
  {
    Vector2(v.x * x, v.y * y)
  }

  /** Multiplies both components by `f`. */
  function MultiplyScalar(v: Vector2, f: real): (r: Vector2)
    ensures r == Multiply(v, f, f)
  {
    Vector2(v.x * f, v.y * f)
  }

  /**
    Per-axis scaling is linear: it maps a sum to the sum of the images and
    commutes with uniform scaling, and each output component depends only
    on the matching input component.
   */
  lemma MultiplyIsLinear(a: Vector2, b: Vector2, k: real, x: real, y: real)
    ensures Multiply(Add(a, b), x, y) == Add(Multiply(a, x, y), Multiply(b, x, y))
    ensures Multiply(MultiplyScalar(a, k), x, y) == MultiplyScalar(Multiply(a, x, y), k)
    ensures Multiply(a, x, y).x == Multiply(Vector2(a.x, b.y), x, y).x
    ensures Multiply(a, x, y).y == Multiply(Vector2(b.x, a.y), x, y).y
  {
    assert a.x * k * x == a.x * x * k && a.y * k * y == a.y * y * k;
  }

  /** Sum and Subtract with the same amounts are mutually inverse. */
  lemma SumSubtractRoundTrip(v: Vector2, x: real, y: real)
    ensures Subtract(Sum(v, x, y), x, y) == v
    ensures Sum(Subtract(v, x, y), x, y) == v
  {
  }

  /**
    Moves `a` a distance `extension` further away from `b`, along the line
    through both, and returns `a` itself when the two coincide. The distance
    between the points, which the source computes with `Math.Sqrt`, is the
    parameter `len`; the model relies only on it being non-negative and zero
    exactly when the points coincide.
   */
  function ExtendFrom(a: Vector2, b: Vector2, extension: real, len: real): (r: Vector2)
    requires 0.0 <= len && (len == 0.0 <==> a == b)
    ensures a == b ==> r == a
    ensures a != b ==> Sub(r, a) == MultiplyScalar(Sub(a, b), extension / len)
  {
    if len == 0.0 then a
    else
      var r := Vector2(a.x + (a.x - b.x) / len * extension, a.y + (a.y - b.y) / len * extension);
      DivMul(a.x - b.x, len, extension);
      DivMul(a.y - b.y, len, extension);
      r
  }

  lemma DivMul(d: real, len: real, e: real)
    requires len != 0.0
    ensures d / len * e == d * (e / len)
  {
  }
}
